=== FILE: README.md ===
# A verified model of the better-seo rule engine

This project models the rule engine of a VS Code extension that reviews a
Markdown blog post for search-engine optimisation. The engine takes three
inputs: the decoded frontmatter mapping, the top-level nodes of the post's
Markdown syntax tree, and the keyword list. It returns an ordered list of
findings. Each finding has a title, a message and a category (frontmatter or
body). Header and paragraph findings also carry a source location.

The model is written in Dafny. Each module follows one source file:

- `Utils`: the partial keyword match.
- `Keywords`: keyword extraction.
- `Title`: the header-structure and article-title rules.
- `FrontmatterRules`: the SEO title and SEO description rules.
- `Analyzer`: the body rules and the orchestration in the analyzer entry point.
- `LegacyFrontmatter` and `LegacyAnalyzer`: the two older analyzers with
  hard-coded field names.

The supporting modules are:

- `Ast`: the syntax-tree node.
- `Errors`: the finding datatype.
- `Metadata`: the frontmatter mapping and JavaScript truthiness.
- `Strings`: the JavaScript string built-ins over `seq<char>`. These are
  `toLowerCase`, `indexOf`, `split(' ')`, `split(/\s+/)`, `substr` and number
  rendering.
- `Seqs`: `filter`, `find` and `map`.

The frontmatter mapping is `map<string, Value>`, where a value is a string or
a list of strings. "Falsy" means the key is absent or holds the empty string.
Every list is truthy, even an empty one. The configuration is a record of
the three field names `titleField`, `seoTitleField` and
`seoDescriptionField`.

The model follows the code where the code and the intended behaviour differ:

- `runAnalysis` returns the body findings first and the frontmatter findings
  after them (src/analyzer/index.ts:20).
- With two or more keywords, a long description gets two identical length
  findings, because `validateSeoDescription` runs once per leading keyword.
- A title that partially matches the primary keyword loses both its
  keyword finding and its length finding. The array the source tests is
  always truthy, so the length check is dropped together with the keyword
  check.
- With no keywords, the repetition rule builds the pattern `undefined+`.

In one place the main model does not follow the code. `analyze` calls
`validateTitle` without its configuration argument
(src/analyzer/index.ts:76), so the configuration is `undefined` inside the
title rule. `hasDuplicateTitle` reads `titleField` on it on every call
(src/analyzer/title.ts:41). `isTitlePresent` also reads it when there is no
first-level header (src/analyzer/title.ts:33). So, as written, `analyze` and
`runAnalysis` throw a `TypeError` on every post and never return findings.
`Title.ValidateTitleAsCalled`, `Analyzer.AnalyzeAsWritten` and
`Analyzer.RunAnalysisAsWritten` model the code as written and prove that it
always throws. `Analyzer.Analyze` and `Analyzer.RunAnalysis`, which the rest
of the model builds on, pass the orchestrator's configuration to the title
rule instead. "## Findings" records this.

## Model

| member | source | states |
|---|---|---|
| Utils.PartialMatch | src/analyzer/utils.ts:1-14 | The empty keyword never matches. Otherwise the result is true exactly when every piece of the keyword split on a single space, lower-cased, occurs in the lower-cased field. |
| Utils.PartialMatchOnLowered | src/analyzer/utils.ts:5-13 | The same test stated on the lower-cased keyword: its pieces occur unchanged in the lower-cased field. |
| Utils.PartialMatchIgnoresCase | src/analyzer/utils.ts:9-10 | Changing the case of the keyword or of the field does not change the result. |
| Utils.WholeKeywordMatches | src/analyzer/utils.ts:5-13 | A non-empty keyword that occurs whole in the field, ignoring case, also matches partially. |
| Utils.PartialMatchIgnoresWordOrder | src/analyzer/utils.ts:8-13 | Any permutation of the keyword's space-separated pieces gives the same result. |
| Utils.PartialMatchMonotone | src/analyzer/utils.ts:10 | A field that contains a matching field as a substring also matches. |
| Utils.AllSpaceKeywordMatches | src/analyzer/utils.ts:5-10 | A non-empty keyword made only of spaces matches every field, because its pieces are all empty. |
| Utils.DoubledSpaceIsHarmless | src/analyzer/utils.ts:5-10 | Doubling a space inside the keyword only adds an empty piece, so the result is unchanged. |
| Strings.Split | src/analyzer/utils.ts:5 | `split(' ')` returns at least one piece, no piece contains the separator, and joining the pieces with the separator gives back the input. |
| Strings.SplitLower | src/analyzer/utils.ts:9 | Lower-casing before splitting gives the lower-cased pieces, because lower-casing never creates or removes a space. |
| Strings.Lower | src/analyzer/utils.ts:9-10 | `toLowerCase` keeps the length, turns every upper-case ASCII letter into its lower-case letter and keeps every other character, so no upper-case letter remains. |
| Strings.IndexOf | src/analyzer/title.ts:66 | `indexOf` returns -1 exactly when the needle does not occur. Otherwise it returns an index where the needle occurs, and the needle occurs at no earlier index. |
| Strings.Contains | src/analyzer/utils.ts:10 | `indexOf(needle) !== -1` holds exactly when the needle occurs as a contiguous substring. |
| Strings.SplitWhitespace | src/analyzer/index.ts:42 | `split(/\s+/)` returns one piece more than there are whitespace runs, every piece is free of whitespace, and the pieces concatenated are the input without its whitespace. |
| Keywords.ExtractKeywords | src/keywords.ts:4-11 | A truthy `keywords` value is returned unchanged and `Keywords` is ignored. Otherwise a truthy `Keywords` value is returned unchanged. With neither truthy the result is empty. The same function appears again at src/analyzer/index.ts:9-16 and is modelled once. |
| Title.ValidateHeaderStructure | src/analyzer/title.ts:7-19 | With at most one first-level header there are no findings. With N > 1 there are exactly N, in document order. The i-th is a `HeaderError` titled 'Header', with the fixed message, the body category and the i-th header's location. |
| Title.HeaderStructureIgnoresOtherNodes | src/analyzer/title.ts:8-9 | Inserting a node that is not a first-level header anywhere in the document leaves the header-structure findings unchanged. |
| Title.IsTitlePresent | src/analyzer/title.ts:29-36 | A title is present exactly when the document has a first-level header or the configured title field is truthy. |
| Title.HasDuplicateTitle | src/analyzer/title.ts:38-43 | The title is duplicated exactly when the document has a first-level header and the configured title field is truthy. |
| Title.GetHeader | src/analyzer/title.ts:45-51 | The resolved title is the frontmatter title field when it is truthy. Otherwise it is the raw text of the first first-level header, and it is absent when there is no such header. |
| Title.AnalyzeTitleForRemainingKeywords | src/analyzer/title.ts:21-27 | One finding, and at most one, exactly when some keyword at index 1 or later is a case-sensitive substring of the title. |
| Title.ValidateTitle | src/analyzer/title.ts:53-80 | Every finding is titled 'Article Title', has the body category and appears once. 'Not found' appears exactly when there is no first-level header and the title field is falsy. The duplicate-title finding appears exactly when both exist. The keyword finding appears exactly when the resolved title and `keywords[0]` are non-empty and the keyword neither occurs literally nor matches partially. The secondary-keyword finding appears exactly when the resolved title is non-empty and contains some later keyword. |
| Title.TitleKeywordFoundIgnoringCase | src/analyzer/title.ts:66-70 | The keyword finding never appears when the primary keyword occurs in the resolved title ignoring case. |
| Title.TitleNotFoundExcludesDuplicate | src/analyzer/title.ts:56-62 | 'Not found' and the duplicate-title finding never appear together. |
| Title.TitleFieldOf | src/analyzer/title.ts:41 | Reading `titleField` on a missing configuration throws the `TypeError`; on a configuration it gives that configuration's title field. |
| Title.IsTitlePresentAsCalled | src/analyzer/title.ts:29-36 | With a missing configuration, `isTitlePresent` throws exactly when there is no first-level header. With a configuration it returns `IsTitlePresent`. |
| Title.HasDuplicateTitleAsCalled | src/analyzer/title.ts:38-43 | With a missing configuration, `hasDuplicateTitle` always throws. With a configuration it returns `HasDuplicateTitle`. |
| Title.ValidateTitleAsCalled | src/analyzer/title.ts:53-62 | `validateTitle` throws the `TypeError` exactly when the configuration is missing. With a configuration it returns the findings of `Title.ValidateTitle`. |
| FrontmatterRules.RepetitionPattern | src/analyzer/frontmatter.ts:46 | The pattern source is the primary keyword followed by `+`, or `undefined+` when there are no keywords. |
| FrontmatterRules.FirstKeywordRepeated | src/analyzer/frontmatter.ts:45-57 | The repetition rule fires once, and at most once, exactly when the supplied matcher counts more than one match of the primary keyword followed by `+`. With no keywords the pattern is `undefined+`. |
| FrontmatterRules.ValidateSeoDescription | src/analyzer/frontmatter.ts:72-81 | For one keyword, every finding is the keyword finding or the length finding. The keyword finding appears once when the keyword does not occur in the description ignoring case, and never otherwise. The length finding appears once when the description is longer than 160 characters and never otherwise. |
| FrontmatterRules.DescriptionKeywordRules | src/analyzer/frontmatter.ts:17-23 | With no keywords, no per-keyword rule runs. Every rule reported names only the primary or secondary keyword, and neither the repetition nor the overcrowding rule appears. |
| FrontmatterRules.DescriptionKeywordRulesCount | src/analyzer/frontmatter.ts:17-23 | A leading keyword is reported exactly when it is missing from the text. The keyword finding for any `k` appears once per leading position holding `k` (twice when the primary and secondary keywords are equal) if `k` is missing, and never if it occurs. The length finding appears once per leading keyword (once with one keyword, twice with two or more) when the text is longer than 160 characters. |
| FrontmatterRules.LeadingKeywordCount | src/analyzer/frontmatter.ts:17-23 | For any `k`, the per-keyword runs report the keyword finding for `k` once per leading position holding `k` when `k` does not occur in the text ignoring case, and never when it does. |
| FrontmatterRules.AllFoundFrom | src/analyzer/frontmatter.ts:60-62 | The `filter(...).length === slice.length` test holds exactly when every keyword from the start index on occurs in the text, ignoring case. |
| FrontmatterRules.ValidateSeoDescriptionWithAllKeywords | src/analyzer/frontmatter.ts:59-70 | One overcrowding finding, and at most one, exactly when every keyword from index 2 on occurs in the description, ignoring case. |
| FrontmatterRules.PresentDescriptionRules | src/analyzer/frontmatter.ts:14-27 | On a truthy description every rule is a description rule and never 'Field not found'. With no keywords, only the repetition rule can fire. |
| FrontmatterRules.DescriptionCounts | src/analyzer/frontmatter.ts:14-27 | On a truthy description, the repetition rule fires once exactly when the pattern matches more than once. The length rule fires once per leading keyword when the text exceeds 160 characters. The overcrowding rule fires once exactly when there are at least three keywords and all from the third on occur. The keyword rule for any `k` fires once per leading position holding `k` if `k` is missing, and never if it occurs. |
| FrontmatterRules.DescriptionKeywordCount | src/analyzer/frontmatter.ts:14-27 | On a truthy description, the keyword finding for any `k` appears once per leading position holding `k` when `k` is missing from the text, and never when it occurs: the repetition and overcrowding rules add none. |
| FrontmatterRules.DescriptionKeywordMissing | src/analyzer/frontmatter.ts:17-23 | On a truthy description, a leading keyword is reported exactly when it does not occur in the text, ignoring case. |
| FrontmatterRules.DescriptionRules | src/analyzer/frontmatter.ts:12-27 | A falsy description yields exactly one 'Field not found' and no other description finding. A truthy description yields the rules above. |
| FrontmatterRules.ValidateSeoTitle | src/analyzer/frontmatter.ts:100-109 | Every finding is the keyword finding or the length finding. The keyword finding appears once when the keyword does not occur in the title ignoring case, and never otherwise. The length finding appears once when the title is longer than 60 characters, and never otherwise. |
| FrontmatterRules.ValidateSeoTitleWithAllKeywords | src/analyzer/frontmatter.ts:83-98 | One overcrowding finding, and at most one, exactly when every keyword, including the first two, occurs in the title ignoring case. |
| FrontmatterRules.TitleKeywordRules | src/analyzer/frontmatter.ts:31-36 | The length finding is kept exactly when there is a primary keyword, it does not partially match the title, and the title is longer than 60 characters. The keyword finding is kept exactly when the primary keyword neither matches partially nor occurs ignoring case. Each kept finding occurs once. |
| FrontmatterRules.PresentTitleRules | src/analyzer/frontmatter.ts:30-40 | On a truthy title only title rules appear, the keyword rule names only the primary keyword, and the length and keyword findings obey the conditions above. |
| FrontmatterRules.TitleKeywordCounts | src/analyzer/frontmatter.ts:30-39 | On a truthy title, the length finding and the primary keyword finding each occur at most once. Each occurs once exactly under its condition above. |
| FrontmatterRules.TitleOvercrowdedCount | src/analyzer/frontmatter.ts:37-39 | On a truthy title, the overcrowding rule fires once when there are at least three keywords and all occur, and never otherwise. |
| FrontmatterRules.TitleRules | src/analyzer/frontmatter.ts:28-40 | A falsy title yields exactly one 'Field not found'. A truthy title yields the title rules. |
| FrontmatterRules.TitleKeywordMissingIffNoPartialMatch | src/analyzer/frontmatter.ts:31-36 | The title keyword finding appears exactly when the title is truthy, the primary keyword is non-empty, and the keyword does not partially match the title. |
| FrontmatterRules.AnalyzeFrontmatter | src/analyzer/frontmatter.ts:6-43 | All description findings come first, titled with the description field name, and then all title findings, titled with the title field name. Every finding is a plain error with the frontmatter category. |
| FrontmatterRules.AnalyzeFrontmatterCounts | src/analyzer/frontmatter.ts:6-43 | When the two field names differ, each finding occurs exactly as often as its rule fires on that field. Messages identify their rule, so nothing is merged or lost. |
| Analyzer.FirstParagraphStr | src/analyzer/index.ts:25-26 | The text node is absent exactly when there is no top-level paragraph, the first paragraph has no children, or none of its children is a `Str`. Otherwise it is the first `Str` child of the first top-level paragraph. |
| Analyzer.ValidateFirstParagraph | src/analyzer/index.ts:23-36 | At most one finding. With no first-paragraph text it is 'Not found'. Otherwise the keyword finding appears exactly when the text lacks the keyword, ignoring case. |
| Analyzer.FirstParagraphFindings | src/analyzer/index.ts:77 | There are never more findings than keywords, so zero keywords give none. Every finding is titled 'First Paragraph' with the body category. Without text, k keywords give exactly k 'Not found' findings. With text, the findings are exactly one keyword finding per keyword the text does not contain (ignoring case), in keyword order and repeated as the keyword is, and 'Not found' never appears. |
| Analyzer.FirstParagraphKeywordIff | src/analyzer/index.ts:32-34 | With a first-paragraph text, the keyword finding for `k` is present exactly when `k` is one of the keywords and the text does not contain it, ignoring case. |
| Analyzer.ParagraphLengthMessage | src/analyzer/index.ts:49 | The message embeds the paragraph's first 20 characters after its fixed opening words. The number before its closing words parses back to the paragraph's length. |
| Analyzer.ValidateParagraphLength | src/analyzer/index.ts:38-54 | One `ParagraphError` per top-level paragraph whose raw text splits into at least 200 whitespace-separated pieces. The findings are in document order, and each carries its paragraph's location and message. |
| Analyzer.ParagraphLengthIgnoresOtherNodes | src/analyzer/index.ts:39-44 | Inserting a node that is not a long paragraph anywhere in the document leaves the paragraph-length findings unchanged. |
| Analyzer.ArticleWordCount | src/analyzer/index.ts:57-62 | The `totalLength` the source computes equals the sum, over the top-level nodes, of the piece counts of each paragraph's direct `Str` children. Other nodes count nothing. |
| Analyzer.ValidateArticleLength | src/analyzer/index.ts:56-69 | Exactly one 'Article Length' finding, carrying the total, when the total is below 300, and none otherwise. |
| Strings.Prefix | src/analyzer/index.ts:49 | `substr(0, n)` returns a prefix of the string, of length n or the whole string when it is shorter. |
| Strings.NatToString | src/analyzer/index.ts:65 | The rendering of a number is a non-empty run of decimal digits with no leading zero. |
| Strings.ParseNatToString | src/analyzer/index.ts:65 | The decimal rendering of a number parses back to that number, so the rendering is faithful. |
| Analyzer.ArticleLengthMessageReadsBack | src/analyzer/index.ts:65 | The number after the fixed prefix of the article-length message parses back to the total. |
| Analyzer.Analyze | src/analyzer/index.ts:71-81 | The body findings are grouped by rule in the fixed order: header structure, title, first paragraph, paragraph length, article length. All are in the body category, and every finding carries one of those five rules' titles. |
| Analyzer.AnalyzeAsWritten | src/analyzer/index.ts:71-81 | As written, with no configuration passed to the title rule, `analyze` throws the `TypeError` on every input. |
| Analyzer.AnalyzeStages | src/analyzer/index.ts:71-81 | Selecting each rule's findings from `analyze` by title gives exactly what that rule reports, in its order. The result is as long as the five rules' reports together, so nothing is dropped, duplicated, added or moved between rules. |
| Analyzer.AnalyzeReadsTopLevelOnly | src/analyzer/index.ts:23-69 | Cutting every node down to what the rules may read changes no body finding. A paragraph keeps its direct children without their own children, and other nodes lose theirs. So only top-level nodes and the direct children of paragraphs are examined. |
| Analyzer.RunAnalysis | src/analyzer/index.ts:18-21 | No frontmatter finding is followed by a body finding: the body findings come first. |
| Analyzer.RunAnalysisParts | src/analyzer/index.ts:18-21 | The body findings of `runAnalysis` are exactly `analyze`'s, and its frontmatter findings exactly `analyzeFrontmatter`'s, each in its own order. Nothing is reordered or deduplicated. |
| Analyzer.RunAnalysisAsWritten | src/analyzer/index.ts:18-21 | As written, `runAnalysis` throws the `TypeError` on every input, because `analyze` does. |
| Analyzer.UnconfiguredTitleThrows | src/analyzer/index.ts:76 | On the empty post, the entry point as written throws. `Analyzer.RunAnalysis`, given the configuration, reports the title as not found. |
| LegacyFrontmatter.FieldFindings | src/frontmatter.ts:14-19 | A falsy field yields exactly 'not found'. A truthy field yields the keyword finding exactly when it lacks the keyword, compared case-sensitively, and nothing otherwise. |
| LegacyFrontmatter.Analyze | src/frontmatter.ts:10-28 | At most two findings. Every finding is one of the two 'not found' findings or the `seo_title` keyword finding. A title finding, when there is one, comes first. |
| LegacyFrontmatter.AnalyzeFindings | src/frontmatter.ts:14-22 | The analyzer as written reports ('seo_title', 'not found') and ('seo_description', 'not found') exactly for the falsy fields. |
| LegacyFrontmatter.AnalyzeMissingCount | src/frontmatter.ts:14-22 | Each 'not found' finding occurs once for a falsy field and not at all for a truthy one. |
| LegacyFrontmatter.AnalyzeKeywordCount | src/frontmatter.ts:17-25 | The `seo_title` keyword finding occurs once for each truthy field that lacks the keyword, the description included. |
| LegacyFrontmatter.DescriptionFindingMislabelled | src/frontmatter.ts:23-25 | For a post whose title contains the keyword and whose description does not, the analyzer as written reports one finding titled `seo_title`. The corrected analyzer titles it `seo_description`. |
| LegacyFrontmatter.AnalyzeCorrected | src/frontmatter.ts:10-28 | At most two findings, each titled with one of the two field names, with any title finding first. |
| LegacyFrontmatter.AnalyzeCorrectedFindings | src/frontmatter.ts:13-27 | 'not found' appears exactly for the falsy fields. Each field's keyword finding, under its own name, appears exactly when the truthy field lacks the keyword. |
| LegacyFrontmatter.CorrectedFieldFindings | src/frontmatter.ts:13-27 | In the corrected analyzer, the findings titled after a field are exactly that field's checks, so there is at most one of them. |
| LegacyFrontmatter.CorrectedLabelsNameTheirField | src/frontmatter.ts:23-25 | In the corrected analyzer, the findings titled after a field depend on that field alone. |
| LegacyFrontmatter.AnalyzeIgnoresLength | src/frontmatter.ts:10-28 | Both analyzers depend only on which fields are truthy and which lack the keyword, never on a field's length. |
| LegacyAnalyzer.FileAnalyze | src/analyzer.ts:10-20 | Exactly one ('Article Title', 'Not found') when no top-level node is a first-level header, and nothing otherwise. |
| LegacyAnalyzer.FileAnalyzeIgnoresKeyword | src/analyzer.ts:10-20 | The file analyzer's result does not depend on the keyword. |
| LegacyAnalyzer.FileAnalyzeIsTitleNotFound | src/analyzer.ts:15-19 | On a post whose title field is falsy, the file analyzer reports 'Not found' exactly when the later title rule does. |
| LegacyAnalyzer.FieldChecks | src/analyzer.ts:31-39 | For one field: at most two findings, all titled with the field's name. A falsy field yields exactly one 'not found'. A truthy field gets the case-sensitive keyword finding exactly when it lacks the keyword, and the length finding exactly when it exceeds the limit. It gets no other finding. |
| LegacyAnalyzer.FrontmatterAnalyze | src/analyzer.ts:26-51 | At most four findings, each titled `seo_title` or `seo_description`, with all `seo_title` findings before all `seo_description` findings. |
| LegacyAnalyzer.FrontmatterFieldFindings | src/analyzer.ts:30-50 | The findings titled after each field are exactly that field's checks: the 60-character limit for the title and the 160-character limit for the description. |
| LegacyAnalyzer.FrontmatterAnalyzeExtendsCorrected | src/analyzer.ts:26-51 | Removing the two length findings leaves exactly the corrected first analyzer's findings. |

## Left out

- Reading the file and decoding its frontmatter (gray-matter) and parsing the Markdown (`@textlint/markdown-to-ast`) are foreign libraries. The decoded mapping and the top-level node sequence are inputs.
- The regular-expression engine behind the repetition rule is left out: the match count is a caller-supplied function of the pattern source and the text. So the model says nothing about `+` binding only to the keyword's last character, about metacharacters in the keyword, or about the `RegExp` constructor throwing on an invalid pattern.
- `toLowerCase` is modelled on ASCII letters only, and `\s` on ASCII whitespace only (space, tab, line feed, vertical tab, form feed, carriage return). Full Unicode case mapping and the Unicode space characters are left out.
- String lengths count Dafny characters, not JavaScript UTF-16 code units. Text outside the Basic Multilingual Plane would count differently in three places: against the 60- and 160-character limits, in the paragraph length that the paragraph-length message reports (`raw.length`, src/analyzer/index.ts:49), and in that message's 20-character opening (`raw.substr(0, 20)`, which can split a surrogate pair).
- Ill-typed frontmatter is left out. A frontmatter value is a string or a list of strings, so the model cannot represent YAML numbers, booleans, dates or nested mappings. It also cannot represent a keywords list with non-string entries. Preconditions exclude two more cases: a configured field holding a list, and a truthy keywords value that is not a list. On most such inputs the source calls a string method (`match`, `toLowerCase`) on a list and throws. The preconditions also exclude the inputs on which it returns normally:
  - A list-valued `seoTitleField` with no keywords skips both title rules (src/analyzer/frontmatter.ts:31 and :37), so nothing is reported for the title.
  - A list-valued `titleField` with no keywords passes both truthiness tests. It then skips the keyword rule (src/analyzer/title.ts:66), and the remaining-keywords rule slices the keywords to nothing (src/analyzer/title.ts:22).
  - A list-valued `titleField` with keywords turns `header.indexOf(k)` (src/analyzer/title.ts:22 and :66) into a search for an element equal to `k`, not a substring search. It throws only when the primary keyword is not an element, because the partial match then lower-cases the list (src/analyzer/utils.ts:10).
- The `TypeError` thrown by `analyze` as written is a failure value carrying the message V8 prints. How the editor surfaces the exception is not modelled.
- The first-paragraph text is looked up once, not once per keyword as in the source. The lookup does not depend on the keyword, so the findings are the same.
- The VS Code tree views, commands, input boxes, workspace configuration and promises (src/treeProvider.ts, src/extension.ts) are user-interface glue.
- The post templates (src/postTemplates, src/blogTemplate.ts) are constant text.
- The extension's test suite is left out.

## Findings

| source | as written | input that shows it | evidently intended | confidence | as-written member | corrected member |
|---|---|---|---|---|---|---|
| src/frontmatter.ts:23-25 | A description that lacks the keyword is reported under the title `seo_title`. | `seo_title: "k"`, `seo_description: "x"`, keyword `k`: the only finding is ('seo_title', "Keyword 'k' not found"), although the title contains the keyword. | The finding is titled `seo_description`, as the later analyzer at src/analyzer.ts:43-45 does. In the corrected analyzer the findings titled after a field depend on that field alone (LegacyFrontmatter.CorrectedLabelsNameTheirField). | high; not executed | LegacyFrontmatter.DescriptionFindingMislabelled | LegacyFrontmatter.AnalyzeCorrected |
| src/analyzer/index.ts:76 | `validateTitle` is called without its configuration. `hasDuplicateTitle` then reads `titleField` on `undefined` (src/analyzer/title.ts:41), so `analyze` and `runAnalysis` throw on every post. | Any post, for instance the empty one: `runAnalysis` throws a `TypeError` instead of reporting the missing title (Analyzer.UnconfiguredTitleThrows). | The caller's configuration is passed on: `validateTitle(markdownFile, children, keywords, configuration)`. The body findings then come in rule order, and the title rule's four findings appear exactly under their conditions (Analyzer.AnalyzeStages, Title.ValidateTitle). | high; not executed | Analyzer.RunAnalysisAsWritten | Analyzer.RunAnalysis |

=== FILE: analyzer.dfy ===
/** The body rules of the analyzer entry point (first paragraph, paragraph
    length, article length) and the orchestration that runs every body rule
    and then the frontmatter rules. The Markdown and frontmatter parsers are
    not modelled: the decoded frontmatter mapping and the top-level nodes of
    the syntax tree are inputs. */
module Analyzer {
  import opened Wrappers
  import opened Strings
  import opened Seqs
  import opened Ast
  import opened Errors
  import opened Metadata
  import opened Keywords
  import opened Title
  import FrontmatterRules

  // ---------------------------------------------------------------------------
  // The first paragraph
  // ---------------------------------------------------------------------------

  const FirstParagraphTitle := "First Paragraph"

  const FirstParagraphNotFound := AnalyzerError(FirstParagraphTitle, "Not found", Body)

  function KeywordNotFoundMessage(keyword: string): string {
    "Keyword " + keyword + " not found"
  }

  function FirstParagraphKeywordMissing(keyword: string): AnalyzerResult {
    AnalyzerError(FirstParagraphTitle, KeywordNotFoundMessage(keyword), Body)
  }

  /** The keyword message names its keyword: different keywords give
      different messages, and none of them is 'Not found'. */
  lemma KeywordNotFoundInjective(a: string, b: string)
    ensures KeywordNotFoundMessage(a) == KeywordNotFoundMessage(b) <==> a == b
    ensures KeywordNotFoundMessage(a) != "Not found"
  {
    var m := KeywordNotFoundMessage(a);
    assert |m| == 18 + |a| && m[8..8 + |a|] == a;
    var n := KeywordNotFoundMessage(b);
    assert |n| == 18 + |b| && n[8..8 + |b|] == b;
  }

  /** `children.find(child => child.type === 'Paragraph')?.children?.find(
      child => child.type === 'Str')`: the first `Str` child of the first
      top-level paragraph, or None when there is no paragraph, it has no
      children, or none of them is a `Str`. */
  function FirstParagraphStr(children: seq<AstChild>): (r: Option<AstChild>)
    ensures r.Some? ==> IsStr(r.value)
    ensures var ps := Filter(children, IsParagraph);
      r == if |ps| == 0 || ps[0].children.None? || |Filter(ps[0].children.value, IsStr)| == 0 then None
           else Some(Filter(ps[0].children.value, IsStr)[0])
  {
    FindIsFirstOfFilter(children, IsParagraph);
    match Find(children, IsParagraph)
    case None => None
    case Some(p) =>
      if p.children.None? then None
      else
        assert Find(p.children.value, IsStr) == if |Filter(p.children.value, IsStr)| == 0 then None
          else Some(Filter(p.children.value, IsStr)[0]) by {
          FindIsFirstOfFilter(p.children.value, IsStr);
        }
        Find(p.children.value, IsStr)
  }

  /** The value of that `Str` node: the text the rule searches. */
  function FirstParagraphText(children: seq<AstChild>): Option<string> {
    match FirstParagraphStr(children)
    case None => None
    case Some(t) => Some(t.value)
  }

  /** `validateFirstParagraph` for one keyword, given the first paragraph
      text (the lookup does not depend on the keyword, so it is done once):
      'Not found' when there is no text, otherwise the keyword finding when
      the text does not contain the keyword ignoring case. At most one
      finding. */
  function ValidateFirstParagraph(text: Option<string>, keyword: string): (r: seq<AnalyzerResult>)
    ensures text.None? ==> r == [FirstParagraphNotFound]
    ensures text.Some? ==> r == [] || r == [FirstParagraphKeywordMissing(keyword)]
    ensures text.Some? ==> (r != [] <==> !OccursIgnoringCase(keyword, text.value))
  {
    When(text.None?, FirstParagraphNotFound)
    + When(text.Some? && !Contains(Lower(text.value), Lower(keyword)), FirstParagraphKeywordMissing(keyword))
  }

  /** `keywords.flatMap(keyword => validateFirstParagraph(children, keyword))`,
      for `text` the first paragraph text of `children`. */
  function FirstParagraphFindings(text: Option<string>, keywords: seq<string>): (r: seq<AnalyzerResult>)
    decreases |keywords|
    ensures |r| <= |keywords|
    ensures forall f <- r :: f.AnalyzerError? && f.title == FirstParagraphTitle && f.resultType == Body
    ensures text.None? ==> |r| == |keywords| && forall f <- r :: f == FirstParagraphNotFound
    ensures text.Some? ==> FirstParagraphNotFound !in r
    ensures text.Some? ==> r == Map(Filter(keywords, AbsentFrom(text.value)), FirstParagraphKeywordMissing)
  {
    if |keywords| == 0 then []
    else
      var rest := FirstParagraphFindings(text, keywords[1..]);
      KeywordNotFoundInjective(keywords[0], keywords[0]);
      if text.Some? then
        MissingHead(text.value, keywords);
        ValidateFirstParagraph(text, keywords[0]) + rest
      else
        ValidateFirstParagraph(text, keywords[0]) + rest
  }

  /** The keywords that `text` does not contain, ignoring case. */
  ghost function AbsentFrom(text: string): string -> bool {
    (k: string) => !OccursIgnoringCase(k, text)
  }

  /** The findings for the missing keywords, split at the first keyword. */
  lemma MissingHead(text: string, keywords: seq<string>)
    requires |keywords| > 0
    ensures Map(Filter(keywords, AbsentFrom(text)), FirstParagraphKeywordMissing)
      == ValidateFirstParagraph(Some(text), keywords[0])
      + Map(Filter(keywords[1..], AbsentFrom(text)), FirstParagraphKeywordMissing)
  {
    var head := if AbsentFrom(text)(keywords[0]) then [keywords[0]] else [];
    MapConcat(head, Filter(keywords[1..], AbsentFrom(text)), FirstParagraphKeywordMissing);
    assert Map(head, FirstParagraphKeywordMissing) == ValidateFirstParagraph(Some(text), keywords[0]);
  }

  /** With a first paragraph text, the keyword finding for `k` is present
      exactly when `k` is one of the keywords and the text does not contain
      it ignoring case. */
  lemma {:induction false} FirstParagraphKeywordIff(text: Option<string>, keywords: seq<string>, k: string)
    requires text.Some?
    ensures FirstParagraphKeywordMissing(k) in FirstParagraphFindings(text, keywords) <==>
      k in keywords && !OccursIgnoringCase(k, text.value)
    decreases |keywords|
  {
    if |keywords| > 0 {
      var all := FirstParagraphFindings(text, keywords);
      var head := ValidateFirstParagraph(text, keywords[0]);
      var rest := FirstParagraphFindings(text, keywords[1..]);
      var m := FirstParagraphKeywordMissing(k);
      ghost var missing := !OccursIgnoringCase(k, text.value);
      FirstParagraphKeywordIff(text, keywords[1..], k);
      KeywordNotFoundInjective(keywords[0], k);
      assert keywords == [keywords[0]] + keywords[1..];
      assert all == head + rest;
      ConsIff(m in all, m in head, m in rest, k in keywords, k == keywords[0], k in keywords[1..], missing);
    }
  }

  lemma ConsIff(inAll: bool, inHead: bool, inRest: bool, listed: bool, isFirst: bool, inTail: bool, missing: bool)
    requires inAll <==> inHead || inRest
    requires inHead <==> isFirst && missing
    requires inRest <==> inTail && missing
    requires listed <==> isFirst || inTail
    ensures inAll <==> listed && missing
  {
  }

  // ---------------------------------------------------------------------------
  // Paragraph length
  // ---------------------------------------------------------------------------

  /** A paragraph whose raw text splits on whitespace runs into 200 pieces
      or more. */
  predicate IsLong(n: AstChild) {
    WordCount(n.raw) >= 200
  }

  predicate IsLongParagraph(n: AstChild) {
    IsParagraph(n) && IsLong(n)
  }

  const ParagraphLengthHead := "Paragraph starting with "

  const ParagraphLengthMiddle := " has more than 200 characters("

  const ParagraphLengthTail := "). Consider breaking it up"

  /** The message names the paragraph by its first 20 characters and
      reports its length. */
  function ParagraphLengthMessage(raw: string): (r: string)
    ensures var opening := Prefix(raw, 20);
      var start := |ParagraphLengthHead| + |opening| + |ParagraphLengthMiddle|;
      && start + |ParagraphLengthTail| <= |r|
      && r[|ParagraphLengthHead|..|ParagraphLengthHead| + |opening|] == opening
      && ParseNat(r[start..|r| - |ParagraphLengthTail|]) == Some(|raw|)
  {
    var opening := Prefix(raw, 20);
    var number := NatToString(|raw|);
    var m := ParagraphLengthHead + opening + ParagraphLengthMiddle + number + ParagraphLengthTail;
    var start := |ParagraphLengthHead| + |opening| + |ParagraphLengthMiddle|;
    assert m[|ParagraphLengthHead|..|ParagraphLengthHead| + |opening|] == opening;
    assert m[start..|m| - |ParagraphLengthTail|] == number;
    ParseNatToString(|raw|);
    m
  }

  function LongParagraphError(n: AstChild): AnalyzerResult {
    ParagraphError("Paragraph", n.loc, ParagraphLengthMessage(n.raw), Body)
  }

  /** `validateParagraphLength`: one finding per long top-level paragraph,
      in document order, carrying that paragraph's location. */
  function ValidateParagraphLength(children: seq<AstChild>): (r: seq<AnalyzerResult>)
    ensures |r| == |Filter(children, IsLongParagraph)|
    ensures forall i :: 0 <= i < |r| ==> r[i] == LongParagraphError(Filter(children, IsLongParagraph)[i])
  {
    var long := Filter(Filter(children, IsParagraph), IsLong);
    FilterFilter(children, IsParagraph, IsLong, IsLongParagraph);
    seq(|long|, i requires 0 <= i < |long| => LongParagraphError(long[i]))
  }

  /** Nodes that are not long paragraphs never contribute: inserting one
      anywhere leaves the paragraph-length findings unchanged. */
  lemma ParagraphLengthIgnoresOtherNodes(before: seq<AstChild>, n: AstChild, after: seq<AstChild>)
    requires !IsLongParagraph(n)
    ensures ValidateParagraphLength(before + [n] + after) == ValidateParagraphLength(before + after)
  {
    assert Filter([n], IsLongParagraph) == [] by {
      assert [n][1..] == [];
    }
    assert Filter(before + [n] + after, IsLongParagraph) == Filter(before + after, IsLongParagraph) by {
      FilterConcat(before + [n], after, IsLongParagraph);
      FilterConcat(before, [n], IsLongParagraph);
      FilterConcat(before, after, IsLongParagraph);
    }
  }

  // ---------------------------------------------------------------------------
  // Article length
  // ---------------------------------------------------------------------------

  predicate HasChildren(n: AstChild) {
    n.children.Some?
  }

  /** `.flatMap(child => child.children?.filter(grandChild => grandChild.type
      === 'Str'))` over paragraphs that all have children. */
  function StrNodes(paragraphs: seq<AstChild>): seq<AstChild>
    requires forall p <- paragraphs :: HasChildren(p)
    decreases |paragraphs|
  {
    if |paragraphs| == 0 then []
    else
      var first := paragraphs[0];
      assert first in paragraphs;
      assert HasChildren(first);
      assert forall p <- paragraphs[1..] :: p in paragraphs;
      Filter(first.children.value, IsStr) + StrNodes(paragraphs[1..])
  }

  /** `.flatMap(textElement => textElement.raw.split(/\s+/))`. */
  function Pieces(strs: seq<AstChild>): seq<string>
    decreases |strs|
  {
    if |strs| == 0 then [] else SplitWhitespace(strs[0].raw) + Pieces(strs[1..])
  }

  /** The `totalLength` of `validateArticleLength`: the number of pieces
      (counted by the `reduce`) of the `Str` children of the top-level
      paragraphs that have children. It is the sum, over the top-level
      nodes, of the words of their direct `Str` children; nodes that are not
      paragraphs count nothing. */
  function ArticleWordCount(children: seq<AstChild>): (r: nat)
    ensures r == DocumentWords(children)
  {
    var paragraphs := Filter(Filter(children, IsParagraph), HasChildren);
    assert forall p <- paragraphs :: HasChildren(p) && IsParagraph(p);
    StrNodesWords(paragraphs);
    DocumentWordsOfFiltered(children);
    |Pieces(StrNodes(paragraphs))|
  }

  /** The words a `Str` node contributes. */
  function StrWords(strs: seq<AstChild>): nat
    decreases |strs|
  {
    if |strs| == 0 then 0 else WordCount(strs[0].raw) + StrWords(strs[1..])
  }

  /** The words one top-level node contributes: those of its direct `Str`
      children when it is a paragraph with children, none otherwise. */
  function NodeWords(n: AstChild): nat {
    if IsParagraph(n) && HasChildren(n) then StrWords(Filter(n.children.value, IsStr)) else 0
  }

  /** The article length counted node by node. */
  function DocumentWords(children: seq<AstChild>): nat
    decreases |children|
  {
    if |children| == 0 then 0 else NodeWords(children[0]) + DocumentWords(children[1..])
  }

  lemma {:induction false} PiecesConcat(a: seq<AstChild>, b: seq<AstChild>)
    ensures |Pieces(a + b)| == |Pieces(a)| + |Pieces(b)|
    ensures |Pieces(a)| == StrWords(a)
    decreases |a|
  {
    if |a| > 0 {
      assert (a + b)[0] == a[0] && (a + b)[1..] == a[1..] + b;
      PiecesConcat(a[1..], b);
    } else {
      assert a + b == b;
    }
  }

  lemma {:induction false} StrNodesWords(paragraphs: seq<AstChild>)
    requires forall p <- paragraphs :: HasChildren(p) && IsParagraph(p)
    ensures |Pieces(StrNodes(paragraphs))| == DocumentWords(paragraphs)
    decreases |paragraphs|
  {
    if |paragraphs| > 0 {
      assert paragraphs[0] in paragraphs && forall p <- paragraphs[1..] :: p in paragraphs;
      StrNodesWords(paragraphs[1..]);
      PiecesConcat(Filter(paragraphs[0].children.value, IsStr), StrNodes(paragraphs[1..]));
    }
  }

  lemma {:induction false} DocumentWordsConcat(a: seq<AstChild>, b: seq<AstChild>)
    ensures DocumentWords(a + b) == DocumentWords(a) + DocumentWords(b)
    decreases |a|
  {
    if |a| > 0 {
      assert (a + b)[0] == a[0] && (a + b)[1..] == a[1..] + b;
      DocumentWordsConcat(a[1..], b);
    } else {
      assert a + b == b;
    }
  }

  lemma {:induction false} DocumentWordsOfFiltered(children: seq<AstChild>)
    ensures DocumentWords(Filter(Filter(children, IsParagraph), HasChildren)) == DocumentWords(children)
    decreases |children|
  {
    if |children| > 0 {
      var c := children[0];
      var rest := children[1..];
      DocumentWordsOfFiltered(rest);
      var head := if IsParagraph(c) then [c] else [];
      FilterConcat(head, Filter(rest, IsParagraph), HasChildren);
      var kept := Filter(head, HasChildren);
      if IsParagraph(c) {
        assert head[1..] == [];
      }
      DocumentWordsConcat(kept, Filter(Filter(rest, IsParagraph), HasChildren));
      assert DocumentWords(kept) == NodeWords(c) by {
        if kept != [] {
          assert kept == [c] && kept[1..] == [];
        }
      }
    }
  }

  const ArticleLengthPrefix := "Article is too short. Expected: At least 300 Characters. Actual Length: "

  function ArticleTooShort(total: nat): AnalyzerResult {
    AnalyzerError("Article Length", ArticleLengthPrefix + NatToString(total), Body)
  }

  /** `validateArticleLength`: exactly one finding, carrying the total, when
      the article has fewer than 300 words; none otherwise. */
  function ValidateArticleLength(children: seq<AstChild>): (r: seq<AnalyzerResult>)
    ensures r == [] || r == [ArticleTooShort(DocumentWords(children))]
    ensures r != [] <==> DocumentWords(children) < 300
  {
    var total := ArticleWordCount(children);
    if total < 300 then [ArticleTooShort(total)] else []
  }

  /** The total in the message reads back as the number of words. */
  lemma ArticleLengthMessageReadsBack(total: nat)
    ensures var m := ArticleTooShort(total).message;
      |ArticleLengthPrefix| <= |m| && ParseNat(m[|ArticleLengthPrefix|..]) == Some(total)
  {
    var m := ArticleTooShort(total).message;
    assert m[|ArticleLengthPrefix|..] == NatToString(total);
    ParseNatToString(total);
  }

  // ---------------------------------------------------------------------------
  // Orchestration
  // ---------------------------------------------------------------------------

  /** The titles of the body rules' findings, in the order `analyze` runs
      the rules. */
  const StageTitles: seq<string> := ["Header", "Article Title", FirstParagraphTitle, "Paragraph", "Article Length"]

  /** The five titles are different (they differ in length). */
  lemma StageTitlesDiffer()
    ensures |StageTitles| == 5
    ensures forall j, k :: 0 <= j < k < 5 ==> StageTitles[j] != StageTitles[k]
  {
    assert |StageTitles[0]| == 6 && |StageTitles[1]| == 13 && |StageTitles[2]| == 15;
    assert |StageTitles[3]| == 9 && |StageTitles[4]| == 14;
  }

  /** The position of a body finding's rule in the order of `analyze`, read
      off the finding's title. */
  function Stage(f: AnalyzerResult): nat {
    if f.title == StageTitles[0] then 0
    else if f.title == StageTitles[1] then 1
    else if f.title == StageTitles[2] then 2
    else if f.title == StageTitles[3] then 3
    else 4
  }

  lemma StageOfTitled(f: AnalyzerResult, k: nat)
    requires k < 5 && f.title == StageTitles[k]
    ensures Stage(f) == k
  {
    StageTitlesDiffer();
  }

  /** The findings appear grouped by rule, in the order of `analyze`. */
  predicate StageOrdered(fs: seq<AnalyzerResult>) {
    forall i, j :: 0 <= i < j < |fs| ==> Stage(fs[i]) <= Stage(fs[j])
  }

  predicate AllTitled(fs: seq<AnalyzerResult>, t: string) {
    forall f <- fs :: f.title == t
  }

  predicate AllBody(fs: seq<AnalyzerResult>) {
    forall f <- fs :: f.resultType == Body
  }

  lemma StageAppend(a: seq<AnalyzerResult>, b: seq<AnalyzerResult>, k: nat)
    requires k < 5
    requires StageOrdered(a) && AllBody(a) && AllBody(b)
    requires forall x <- a :: Stage(x) <= k
    requires AllTitled(b, StageTitles[k])
    requires forall x <- a :: x.title in StageTitles
    ensures StageOrdered(a + b) && AllBody(a + b)
    ensures forall x <- a + b :: Stage(x) <= k
    ensures forall x <- a + b :: x.title in StageTitles
  {
    forall y <- b
      ensures Stage(y) == k
    {
      StageOfTitled(y, k);
    }
    var r := a + b;
    forall i, j | 0 <= i < j < |r|
      ensures Stage(r[i]) <= Stage(r[j])
    {
      if j < |a| {
        assert r[i] == a[i] && r[j] == a[j];
      } else {
        assert r[j] == b[j - |a|] && b[j - |a|] in b;
        if i < |a| {
          assert r[i] == a[i] && a[i] in a;
        } else {
          assert r[i] == b[i - |a|] && b[i - |a|] in b;
        }
      }
    }
  }

  lemma HeaderShape(children: seq<AstChild>)
    ensures AllTitled(ValidateHeaderStructure(children), StageTitles[0])
    ensures AllBody(ValidateHeaderStructure(children))
  {
  }

  lemma ArticleTitleShape(data: Data, children: seq<AstChild>, keywords: seq<string>, configuration: FrontmatterConfiguration)
    requires HoldsText(data, configuration.titleField)
    ensures AllTitled(ValidateTitle(data, children, keywords, configuration), StageTitles[1])
    ensures AllBody(ValidateTitle(data, children, keywords, configuration))
  {
  }

  lemma FirstParagraphShape(text: Option<string>, keywords: seq<string>)
    ensures AllTitled(FirstParagraphFindings(text, keywords), StageTitles[2])
    ensures AllBody(FirstParagraphFindings(text, keywords))
  {
  }

  lemma ParagraphShape(children: seq<AstChild>)
    ensures AllTitled(ValidateParagraphLength(children), StageTitles[3])
    ensures AllBody(ValidateParagraphLength(children))
  {
  }

  lemma ArticleShape(children: seq<AstChild>)
    ensures AllTitled(ValidateArticleLength(children), StageTitles[4])
    ensures AllBody(ValidateArticleLength(children))
  {
  }

  /** `analyze`: the body rules in their fixed order, with the configuration
      the orchestrator was given passed to the title rule. The source passes
      none; `AnalyzeAsWritten` models that. */
  function Analyze(data: Data, children: seq<AstChild>, keywords: seq<string>, configuration: FrontmatterConfiguration): (r: seq<AnalyzerResult>)
    requires HoldsText(data, configuration.titleField)
    ensures StageOrdered(r)
    ensures AllBody(r)
    ensures forall f <- r :: f.title in StageTitles
  {
    var header := ValidateHeaderStructure(children);
    var title := ValidateTitle(data, children, keywords, configuration);
    var first := FirstParagraphFindings(FirstParagraphText(children), keywords);
    var paragraphs := ValidateParagraphLength(children);
    var article := ValidateArticleLength(children);
    HeaderShape(children);
    ArticleTitleShape(data, children, keywords, configuration);
    FirstParagraphShape(FirstParagraphText(children), keywords);
    ParagraphShape(children);
    ArticleShape(children);
    StageAppend([], header, 0);
    StageAppend(header, title, 1);
    StageAppend(header + title, first, 2);
    StageAppend(header + title + first, paragraphs, 3);
    StageAppend(header + title + first + paragraphs, article, 4);
    header + title + first + paragraphs + article
  }

  /** `analyze` as written: `validateTitle` is called without its
      configuration argument, so the title rule throws on every post and
      `analyze` never returns. The header rule before it cannot throw; the
      rules after it are never reached. */
  function AnalyzeAsWritten(data: Data, children: seq<AstChild>, keywords: seq<string>): (r: Result<seq<AnalyzerResult>>)
    ensures r == Failure(UndefinedTitleField)
  {
    var header := ValidateHeaderStructure(children);
    var first := FirstParagraphFindings(FirstParagraphText(children), keywords);
    var paragraphs := ValidateParagraphLength(children);
    var article := ValidateArticleLength(children);
    match ValidateTitleAsCalled(data, children, keywords, None)
    case Failure(e) => Failure(e)
    case Success(title) => Success(header + title + first + paragraphs + article)
  }

  /** The findings titled `t`. */
  function HasTitle(t: string): AnalyzerResult -> bool {
    (f: AnalyzerResult) => f.title == t
  }

  lemma FilterFive(a: seq<AnalyzerResult>, b: seq<AnalyzerResult>, c: seq<AnalyzerResult>,
                   d: seq<AnalyzerResult>, e: seq<AnalyzerResult>, p: AnalyzerResult -> bool)
    ensures Filter(a + b + c + d + e, p) == Filter(a, p) + Filter(b, p) + Filter(c, p) + Filter(d, p) + Filter(e, p)
  {
    FilterConcat(a + b + c + d, e, p);
    FilterConcat(a + b + c, d, p);
    FilterConcat(a + b, c, p);
    FilterConcat(a, b, p);
  }

  /** Filtering by title `StageTitles[k]` a list whose findings all carry
      title `StageTitles[j]`: all of it when `j == k`, nothing otherwise. */
  lemma FilterTitled(fs: seq<AnalyzerResult>, j: nat, k: nat)
    requires j < 5 && k < 5
    requires AllTitled(fs, StageTitles[j])
    ensures Filter(fs, HasTitle(StageTitles[k])) == if j == k then fs else []
  {
    if j == k {
      FilterKeepsEvery(fs, HasTitle(StageTitles[k]));
    } else {
      StageTitlesDiffer();
      FilterDropsEvery(fs, HasTitle(StageTitles[k]));
    }
  }

  lemma PickStage(header: seq<AnalyzerResult>, title: seq<AnalyzerResult>, first: seq<AnalyzerResult>,
                  paragraphs: seq<AnalyzerResult>, article: seq<AnalyzerResult>, k: nat)
    requires k < 5
    requires AllTitled(header, StageTitles[0]) && AllTitled(title, StageTitles[1])
    requires AllTitled(first, StageTitles[2]) && AllTitled(paragraphs, StageTitles[3])
    requires AllTitled(article, StageTitles[4])
    ensures Filter(header + title + first + paragraphs + article, HasTitle(StageTitles[k]))
      == (if k == 0 then header else [])
      + (if k == 1 then title else [])
      + (if k == 2 then first else [])
      + (if k == 3 then paragraphs else [])
      + (if k == 4 then article else [])
  {
    FilterFive(header, title, first, paragraphs, article, HasTitle(StageTitles[k]));
    FilterTitled(header, 0, k);
    FilterTitled(title, 1, k);
    FilterTitled(first, 2, k);
    FilterTitled(paragraphs, 3, k);
    FilterTitled(article, 4, k);
  }

  /** Five lists whose findings carry the five stage titles in turn. */
  predicate PartsTitled(header: seq<AnalyzerResult>, title: seq<AnalyzerResult>, first: seq<AnalyzerResult>,
                        paragraphs: seq<AnalyzerResult>, article: seq<AnalyzerResult>) {
    && AllTitled(header, StageTitles[0]) && AllTitled(title, StageTitles[1])
    && AllTitled(first, StageTitles[2]) && AllTitled(paragraphs, StageTitles[3])
    && AllTitled(article, StageTitles[4])
  }

  lemma PickStages(header: seq<AnalyzerResult>, title: seq<AnalyzerResult>, first: seq<AnalyzerResult>,
                   paragraphs: seq<AnalyzerResult>, article: seq<AnalyzerResult>)
    requires PartsTitled(header, title, first, paragraphs, article)
    ensures var r := header + title + first + paragraphs + article;
      && Filter(r, HasTitle("Header")) == header
      && Filter(r, HasTitle("Article Title")) == title
      && Filter(r, HasTitle(FirstParagraphTitle)) == first
      && Filter(r, HasTitle("Paragraph")) == paragraphs
      && Filter(r, HasTitle("Article Length")) == article
  {
    PickStage(header, title, first, paragraphs, article, 0);
    PickStage(header, title, first, paragraphs, article, 1);
    PickStage(header, title, first, paragraphs, article, 2);
    PickStage(header, title, first, paragraphs, article, 3);
    PickStage(header, title, first, paragraphs, article, 4);
  }

  lemma AnalyzePartsTitled(data: Data, children: seq<AstChild>, keywords: seq<string>, configuration: FrontmatterConfiguration)
    requires HoldsText(data, configuration.titleField)
    ensures PartsTitled(ValidateHeaderStructure(children), ValidateTitle(data, children, keywords, configuration),
                        FirstParagraphFindings(FirstParagraphText(children), keywords),
                        ValidateParagraphLength(children), ValidateArticleLength(children))
  {
    HeaderShape(children);
    ArticleTitleShape(data, children, keywords, configuration);
    FirstParagraphShape(FirstParagraphText(children), keywords);
    ParagraphShape(children);
    ArticleShape(children);
  }

  /** Each rule's findings, picked out of `analyze`'s result by their title,
      are exactly what that rule reports, in its order: nothing is dropped,
      duplicated or moved between rules. */
  lemma AnalyzeStages(data: Data, children: seq<AstChild>, keywords: seq<string>, configuration: FrontmatterConfiguration)
    requires HoldsText(data, configuration.titleField)
    ensures var r := Analyze(data, children, keywords, configuration);
      && Filter(r, HasTitle("Header")) == ValidateHeaderStructure(children)
      && Filter(r, HasTitle("Article Title")) == ValidateTitle(data, children, keywords, configuration)
      && Filter(r, HasTitle(FirstParagraphTitle)) == FirstParagraphFindings(FirstParagraphText(children), keywords)
      && Filter(r, HasTitle("Paragraph")) == ValidateParagraphLength(children)
      && Filter(r, HasTitle("Article Length")) == ValidateArticleLength(children)
      && |r| == |ValidateHeaderStructure(children)| + |ValidateTitle(data, children, keywords, configuration)|
        + |FirstParagraphFindings(FirstParagraphText(children), keywords)|
        + |ValidateParagraphLength(children)| + |ValidateArticleLength(children)|
  {
    AnalyzePartsTitled(data, children, keywords, configuration);
    PickStages(ValidateHeaderStructure(children), ValidateTitle(data, children, keywords, configuration),
               FirstParagraphFindings(FirstParagraphText(children), keywords),
               ValidateParagraphLength(children), ValidateArticleLength(children));
  }

  // ---------------------------------------------------------------------------
  // Only the top level and the paragraphs' direct children are read
  // ---------------------------------------------------------------------------

  /** A node without its children. */
  function Strip(n: AstChild): AstChild {
    n.(children := None)
  }

  /** A top-level node cut down to what the body rules may read: a paragraph
      keeps its direct children, without theirs; any other node loses its
      children. */
  function Shallow(n: AstChild): AstChild {
    if IsParagraph(n) && HasChildren(n) then n.(children := Some(Map(n.children.value, Strip)))
    else n.(children := None)
  }

  /** Cutting children away keeps a node's kind, depth, raw text and location. */
  lemma ShallowKeepsNode(n: AstChild)
    ensures Shallow(n).kind == n.kind && Shallow(n).depth == n.depth
    ensures Shallow(n).raw == n.raw && Shallow(n).loc == n.loc
  {
  }

  lemma TopHeadersShallow(children: seq<AstChild>)
    ensures TopHeaders(Map(children, Shallow)) == Map(TopHeaders(children), Shallow)
    ensures FirstTopHeader(Map(children, Shallow)) ==
      if FirstTopHeader(children).None? then None else Some(Shallow(FirstTopHeader(children).value))
  {
    forall x ensures IsTopHeader(Shallow(x)) == IsTopHeader(x) {
      ShallowKeepsNode(x);
    }
    FilterMap(children, Shallow, IsTopHeader, IsTopHeader);
    FindMap(children, Shallow, IsTopHeader, IsTopHeader);
  }

  lemma HeaderErrorsShallow(headers: seq<AstChild>)
    ensures HeaderErrors(Map(headers, Shallow)) == HeaderErrors(headers)
  {
    forall i | 0 <= i < |headers|
      ensures HeaderErrors(Map(headers, Shallow))[i] == HeaderErrors(headers)[i]
    {
      ShallowKeepsNode(headers[i]);
    }
  }

  lemma HeaderStructureShallow(children: seq<AstChild>)
    ensures ValidateHeaderStructure(Map(children, Shallow)) == ValidateHeaderStructure(children)
  {
    TopHeadersShallow(children);
    HeaderErrorsShallow(TopHeaders(children));
  }

  lemma TitleShallow(data: Data, children: seq<AstChild>, keywords: seq<string>, configuration: FrontmatterConfiguration)
    requires HoldsText(data, configuration.titleField)
    ensures ValidateTitle(data, Map(children, Shallow), keywords, configuration)
         == ValidateTitle(data, children, keywords, configuration)
  {
    TopHeadersShallow(children);
    if FirstTopHeader(children).Some? {
      ShallowKeepsNode(FirstTopHeader(children).value);
    }
  }

  lemma FirstParagraphShallow(children: seq<AstChild>)
    ensures FirstParagraphText(Map(children, Shallow)) == FirstParagraphText(children)
  {
    var p := Find(children, IsParagraph);
    assert Find(Map(children, Shallow), IsParagraph) == if p.None? then None else Some(Shallow(p.value)) by {
      forall x ensures IsParagraph(Shallow(x)) == IsParagraph(x) {
        ShallowKeepsNode(x);
      }
      FindMap(children, Shallow, IsParagraph, IsParagraph);
    }
    if p.None? {
      assert FirstParagraphStr(Map(children, Shallow)) == None;
    } else if p.value.children.None? {
      assert FirstParagraphStr(Map(children, Shallow)) == None;
    } else {
      ParagraphStrShallow(p.value);
      var f := Find(Shallow(p.value).children.value, IsStr);
      assert FirstParagraphStr(Map(children, Shallow)) == f;
      assert FirstParagraphStr(children) == Find(p.value.children.value, IsStr);
    }
  }

  /** The first `Str` child of a paragraph survives the cut with its value. */
  lemma ParagraphStrShallow(p: AstChild)
    requires IsParagraph(p) && HasChildren(p)
    ensures var f := Find(Shallow(p).children.value, IsStr);
      var g := Find(p.children.value, IsStr);
      f.Some? == g.Some? && (f.Some? ==> f.value.value == g.value.value)
  {
    FindMap(p.children.value, Strip, IsStr, IsStr);
  }

  lemma ParagraphLengthShallow(children: seq<AstChild>)
    ensures ValidateParagraphLength(Map(children, Shallow)) == ValidateParagraphLength(children)
  {
    forall x ensures IsLongParagraph(Shallow(x)) == IsLongParagraph(x) {
      ShallowKeepsNode(x);
    }
    FilterMap(children, Shallow, IsLongParagraph, IsLongParagraph);
    var long := Filter(children, IsLongParagraph);
    forall i | 0 <= i < |long|
      ensures LongParagraphError(Map(long, Shallow)[i]) == LongParagraphError(long[i])
    {
      ShallowKeepsNode(long[i]);
    }
  }

  lemma {:induction false} StrWordsStrip(strs: seq<AstChild>)
    ensures StrWords(Map(strs, Strip)) == StrWords(strs)
    decreases |strs|
  {
    if |strs| > 0 {
      var m := Map(strs, Strip);
      assert m[0] == Strip(strs[0]) && m[1..] == Map(strs[1..], Strip);
      StrWordsStrip(strs[1..]);
    }
  }

  lemma NodeWordsShallow(n: AstChild)
    ensures NodeWords(Shallow(n)) == NodeWords(n)
  {
    if IsParagraph(n) && HasChildren(n) {
      FilterMap(n.children.value, Strip, IsStr, IsStr);
      StrWordsStrip(Filter(n.children.value, IsStr));
    }
  }

  lemma {:induction false} DocumentWordsShallow(children: seq<AstChild>)
    ensures DocumentWords(Map(children, Shallow)) == DocumentWords(children)
    decreases |children|
  {
    if |children| > 0 {
      var m := Map(children, Shallow);
      assert m[0] == Shallow(children[0]) && m[1..] == Map(children[1..], Shallow);
      NodeWordsShallow(children[0]);
      DocumentWordsShallow(children[1..]);
    }
  }

  /** Only the top-level nodes and the direct children of top-level
      paragraphs are read: cutting away everything below them (and the
      children of every other top-level node) changes no body finding. */
  lemma AnalyzeReadsTopLevelOnly(data: Data, children: seq<AstChild>, keywords: seq<string>, configuration: FrontmatterConfiguration)
    requires HoldsText(data, configuration.titleField)
    ensures Analyze(data, Map(children, Shallow), keywords, configuration) == Analyze(data, children, keywords, configuration)
  {
    var shallow := Map(children, Shallow);
    assert ValidateHeaderStructure(shallow) == ValidateHeaderStructure(children) by {
      HeaderStructureShallow(children);
    }
    assert ValidateTitle(data, shallow, keywords, configuration) == ValidateTitle(data, children, keywords, configuration) by {
      TitleShallow(data, children, keywords, configuration);
    }
    assert FirstParagraphText(shallow) == FirstParagraphText(children) by {
      FirstParagraphShallow(children);
    }
    assert ValidateParagraphLength(shallow) == ValidateParagraphLength(children) by {
      ParagraphLengthShallow(children);
    }
    assert ValidateArticleLength(shallow) == ValidateArticleLength(children) by {
      DocumentWordsShallow(children);
    }
  }

  predicate IsBodyFinding(f: AnalyzerResult) {
    f.resultType == Body
  }

  predicate IsFrontmatterFinding(f: AnalyzerResult) {
    f.resultType == Frontmatter
  }

  /** `runAnalysis`: the body findings, then the frontmatter findings. The
      keywords are extracted from the frontmatter; the parsed frontmatter
      and top-level nodes stand for the Markdown file, and the
      regular-expression match counter is a parameter. */
  function RunAnalysis(data: Data, children: seq<AstChild>, configuration: FrontmatterConfiguration,
                       countMatches: FrontmatterRules.MatchCounter): (r: seq<AnalyzerResult>)
    requires KeywordsWellTyped(data)
    requires HoldsText(data, configuration.titleField)
    requires HoldsText(data, configuration.seoTitleField)
    requires HoldsText(data, configuration.seoDescriptionField)
    ensures forall i, j :: 0 <= i < j < |r| && IsFrontmatterFinding(r[i]) ==> IsFrontmatterFinding(r[j])
  {
    var keywords := ExtractKeywords(data);
    var body := Analyze(data, children, keywords, configuration);
    var front := FrontmatterRules.AnalyzeFrontmatter(data, configuration, keywords, countMatches);
    BodyThenFrontmatter(body, front);
    body + front
  }

  lemma BodyThenFrontmatter(body: seq<AnalyzerResult>, front: seq<AnalyzerResult>)
    requires AllBody(body)
    requires forall f <- front :: IsFrontmatterFinding(f)
    ensures var r := body + front;
      forall i, j :: 0 <= i < j < |r| && IsFrontmatterFinding(r[i]) ==> IsFrontmatterFinding(r[j])
    ensures Filter(body + front, IsBodyFinding) == body
    ensures Filter(body + front, IsFrontmatterFinding) == front
  {
    var r := body + front;
    forall i, j | 0 <= i < j < |r| && IsFrontmatterFinding(r[i])
      ensures IsFrontmatterFinding(r[j])
    {
      assert r[j] == front[j - |body|] && front[j - |body|] in front;
    }
    FilterConcat(body, front, IsBodyFinding);
    FilterConcat(body, front, IsFrontmatterFinding);
    FilterKeepsEvery(body, IsBodyFinding);
    FilterDropsEvery(body, IsFrontmatterFinding);
    FilterKeepsEvery(front, IsFrontmatterFinding);
    FilterDropsEvery(front, IsBodyFinding);
  }

  /** The body findings of `runAnalysis` are exactly `analyze`'s and the
      frontmatter findings exactly `analyzeFrontmatter`'s, each in its own
      order: the concatenation neither reorders nor deduplicates. */
  lemma RunAnalysisParts(data: Data, children: seq<AstChild>, configuration: FrontmatterConfiguration,
                         countMatches: FrontmatterRules.MatchCounter)
    requires KeywordsWellTyped(data)
    requires HoldsText(data, configuration.titleField)
    requires HoldsText(data, configuration.seoTitleField)
    requires HoldsText(data, configuration.seoDescriptionField)
    ensures var keywords := ExtractKeywords(data);
      var r := RunAnalysis(data, children, configuration, countMatches);
      && Filter(r, IsBodyFinding) == Analyze(data, children, keywords, configuration)
      && Filter(r, IsFrontmatterFinding) == FrontmatterRules.AnalyzeFrontmatter(data, configuration, keywords, countMatches)
  {
    var keywords := ExtractKeywords(data);
    BodyThenFrontmatter(Analyze(data, children, keywords, configuration),
                        FrontmatterRules.AnalyzeFrontmatter(data, configuration, keywords, countMatches));
  }

  /** `runAnalysis` as written: it throws whenever `analyze` does, so on
      every post. */
  function RunAnalysisAsWritten(data: Data, children: seq<AstChild>, configuration: FrontmatterConfiguration,
                                countMatches: FrontmatterRules.MatchCounter): (r: Result<seq<AnalyzerResult>>)
    requires KeywordsWellTyped(data)
    requires HoldsText(data, configuration.seoTitleField)
    requires HoldsText(data, configuration.seoDescriptionField)
    ensures r == Failure(UndefinedTitleField)
  {
    var keywords := ExtractKeywords(data);
    var front := FrontmatterRules.AnalyzeFrontmatter(data, configuration, keywords, countMatches);
    match AnalyzeAsWritten(data, children, keywords)
    case Failure(e) => Failure(e)
    case Success(body) => Success(body + front)
  }

  /** An empty post, with no frontmatter, no nodes and no keywords: the entry
      point as written throws, where the analysis given its configuration
      reports that the article has no title. */
  lemma UnconfiguredTitleThrows(configuration: FrontmatterConfiguration, countMatches: FrontmatterRules.MatchCounter)
    ensures RunAnalysisAsWritten(map[], [], configuration, countMatches).Failure?
    ensures TitleNotFound in RunAnalysis(map[], [], configuration, countMatches)
  {
    var data: Data := map[];
    var keywords := ExtractKeywords(data);
    var title := ValidateTitle(data, [], keywords, configuration);
    assert TitleNotFound in title;
    var body := Analyze(data, [], keywords, configuration);
    assert body == ValidateHeaderStructure([]) + title + FirstParagraphFindings(FirstParagraphText([]), keywords)
      + ValidateParagraphLength([]) + ValidateArticleLength([]);
    assert TitleNotFound in body;
  }
}

=== FILE: ast.dfy ===
/** The Markdown syntax tree the parser hands to the analyzers. Only the
    top-level nodes and their direct children are ever inspected. */
module Ast {
  import opened Wrappers

  datatype Position = Position(line: int, column: int)

  datatype Location = Location(start: Position, end: Position)

  /** One node of the tree. `kind` is the parser's node type (`"Header"`,
      `"Paragraph"`, `"Str"`, ...); `depth` is present on headers only;
      `children` is present on container nodes such as paragraphs. */
  datatype AstChild = AstChild(
    kind: string,
    value: string,
    raw: string,
    depth: Option<int>,
    loc: Location,
    children: Option<seq<AstChild>>)

  /** A first-level header: type `Header` with depth 1. */
  predicate IsTopHeader(n: AstChild) {
    n.kind == "Header" && n.depth == Some(1)
  }

  predicate IsParagraph(n: AstChild) {
    n.kind == "Paragraph"
  }

  predicate IsStr(n: AstChild) {
    n.kind == "Str"
  }
}

=== FILE: errors.dfy ===
/** The findings the analyzers report. The source's class hierarchy
    (`AnalyzerError`, and its subclasses `ParagraphError` and `HeaderError`
    that also carry a source location) is one datatype with one constructor
    per class. */
module Errors {
  import opened Ast
  import opened Seqs

  /** Which group of the result view a finding belongs to. */
  datatype ResultType = Frontmatter | Body

  datatype AnalyzerResult =
    | AnalyzerError(title: string, message: string, resultType: ResultType)
    | ParagraphError(title: string, loc: Location, message: string, resultType: ResultType)
    | HeaderError(title: string, loc: Location, message: string, resultType: ResultType)

  /** No finding appears twice. */
  predicate Distinct(fs: seq<AnalyzerResult>) {
    forall i, j :: 0 <= i < j < |fs| ==> fs[i] != fs[j]
  }

  /** Pushing a finding in front keeps the list free of repeats when the
      finding is not already there. */
  lemma WhenPrepend(c: bool, f: AnalyzerResult, rest: seq<AnalyzerResult>)
    requires Distinct(rest)
    requires c ==> f !in rest
    ensures forall x :: x in When(c, f) + rest <==> (c && x == f) || x in rest
    ensures Distinct(When(c, f) + rest)
  {
    if c {
      var r := [f] + rest;
      forall i, j | 0 <= i < j < |r|
        ensures r[i] != r[j]
      {
        assert r[j] == rest[j - 1];
        if i > 0 {
          assert r[i] == rest[i - 1];
        } else {
          assert rest[j - 1] in rest;
        }
      }
    } else {
      assert When(c, f) + rest == rest;
    }
  }
}

=== FILE: frontmatter_rules.dfy ===
/** The frontmatter analysis: presence, length and keyword-distribution rules
    for the configured SEO title and SEO description fields. Each rule is
    named by a `Rule`; a finding is the rule's fixed message attached to the
    field the rule was checked on. */
module FrontmatterRules {
  import opened Wrappers
  import opened Strings
  import opened Seqs
  import opened Errors
  import opened Metadata
  import opened Utils

  /** The number of matches `text.match(new RegExp(pattern, 'ig'))` finds
      (0 when it finds none). The regular-expression engine is not modelled:
      the caller supplies it. */
  type MatchCounter = (string, string) -> nat

  /** The source text of the repetition pattern: the primary keyword followed
      by `+`. With no keywords the template literal renders `undefined`. */
  function RepetitionPattern(keywords: seq<string>): (r: string)
    ensures |r| >= 1 && r[|r| - 1] == '+'
    ensures |keywords| > 0 ==> r[..|r| - 1] == keywords[0]
    ensures |keywords| == 0 ==> r == "undefined+"
  {
    (if |keywords| == 0 then "undefined" else keywords[0]) + "+"
  }

  const FieldMissingMessage := "Field not found"
  const PrimaryRepeatedMessage := "Should not contain primary keyword more than once"
  const DescriptionTooLongMessage := "SEO Description should 160 characters max."
  const DescriptionOvercrowdedMessage := "SEO Description should not contain more than the primary and secondary keyword"
  const SeoTitleTooLongMessage := "SEO Title should have 60 Characters max."
  const SeoTitleOvercrowdedMessage := "SEO Title should only include two keywords maximum"

  datatype Rule =
    | FieldMissing
    | PrimaryRepeated
    | KeywordMissing(keyword: string)
    | DescriptionTooLong
    | DescriptionOvercrowded
    | SeoTitleTooLong
    | SeoTitleOvercrowded
  {
    /** The message the source reports for this rule. */
    function Message(): string {
      match this
      case FieldMissing => FieldMissingMessage
      case PrimaryRepeated => PrimaryRepeatedMessage
      case KeywordMissing(k) => "Keyword '" + k + "' not found"
      case DescriptionTooLong => DescriptionTooLongMessage
      case DescriptionOvercrowded => DescriptionOvercrowdedMessage
      case SeoTitleTooLong => SeoTitleTooLongMessage
      case SeoTitleOvercrowded => SeoTitleOvercrowdedMessage
    }

    /** The rules the description half can report. */
    predicate OfDescription() {
      !SeoTitleTooLong? && !SeoTitleOvercrowded?
    }

    /** The rules the title half can report. */
    predicate OfTitle() {
      !PrimaryRepeated? && !DescriptionTooLong? && !DescriptionOvercrowded?
    }
  }

  /** The finding for `rule` checked on `field`. */
  function Finding(field: string, rule: Rule): AnalyzerResult {
    AnalyzerError(field, rule.Message(), Frontmatter)
  }

  /** The fixed messages have pairwise different lengths. */
  lemma FixedMessageLengths(a: Rule)
    ensures a.FieldMissing? ==> |a.Message()| == 15
    ensures a.PrimaryRepeated? ==> |a.Message()| == 49
    ensures a.DescriptionTooLong? ==> |a.Message()| == 42
    ensures a.DescriptionOvercrowded? ==> |a.Message()| == 78
    ensures a.SeoTitleTooLong? ==> |a.Message()| == 40
    ensures a.SeoTitleOvercrowded? ==> |a.Message()| == 50
  {
    match a
    case FieldMissing => assert |a.Message()| == 15;
    case PrimaryRepeated => assert |a.Message()| == 49;
    case KeywordMissing(_) =>
    case DescriptionTooLong => assert |a.Message()| == 42;
    case DescriptionOvercrowded => assert |a.Message()| == 78;
    case SeoTitleTooLong => assert |a.Message()| == 40;
    case SeoTitleOvercrowded => assert |a.Message()| == 50;
  }

  /** No fixed message of 20 characters or more ends in "nd", as every
      keyword message does. */
  lemma FixedMessageTails(a: Rule)
    requires !a.KeywordMissing? && |a.Message()| >= 20
    ensures a.Message()[|a.Message()| - 2] != 'n'
  {
    var m := a.Message();
    match a
    case PrimaryRepeated => assert m[47] == 'c';
    case DescriptionTooLong => assert m[40] == 'x';
    case DescriptionOvercrowded => assert m[76] == 'r';
    case SeoTitleTooLong => assert m[38] == 'x';
    case SeoTitleOvercrowded => assert m[48] == 'u';
  }

  /** A keyword message is 20 characters longer than its keyword, ends in
      "nd" and holds the keyword from offset 9 on. */
  lemma KeywordMessageShape(k: string)
    ensures var m := KeywordMissing(k).Message();
      |m| == 20 + |k| && m[|m| - 2] == 'n' && m[9..9 + |k|] == k
  {
  }

  /** Different rules have different messages, so a finding names its rule. */
  lemma MessageInjective(a: Rule, b: Rule)
    requires a.Message() == b.Message()
    ensures a == b
  {
    if a.KeywordMissing? && b.KeywordMissing? {
      KeywordMessageShape(a.keyword);
      KeywordMessageShape(b.keyword);
    } else if a.KeywordMissing? {
      KeywordMessageShape(a.keyword);
      FixedMessageTails(b);
    } else if b.KeywordMissing? {
      KeywordMessageShape(b.keyword);
      FixedMessageTails(a);
    } else {
      FixedMessageLengths(a);
      FixedMessageLengths(b);
    }
  }

  /** A finding names its rule: equal findings on one field come from equal
      rules. */
  lemma FindingInjective(field: string, a: Rule, b: Rule)
    ensures Finding(field, a) == Finding(field, b) <==> a == b
  {
    if Finding(field, a) == Finding(field, b) {
      MessageInjective(a, b);
    }
  }

  /** The findings for a list of rules checked on one field, in order. */
  function Findings(field: string, rules: seq<Rule>): (r: seq<AnalyzerResult>)
    decreases |rules|
    ensures |r| == |rules|
    ensures forall i :: 0 <= i < |r| ==> r[i] == Finding(field, rules[i])
  {
    if |rules| == 0 then [] else [Finding(field, rules[0])] + Findings(field, rules[1..])
  }

  /** Each finding occurs as often as its rule. */
  lemma FindingsCount(field: string, rules: seq<Rule>, rule: Rule)
    ensures multiset(Findings(field, rules))[Finding(field, rule)] == multiset(rules)[rule]
  {
    var f := (r: Rule) => Finding(field, r);
    assert Findings(field, rules) == Map(rules, f);
    forall y
      ensures f(y) == f(rule) ==> y == rule
    {
      FindingInjective(field, y, rule);
    }
    MapCount(rules, f, rule);
  }

  /** Every keyword from index `start` on occurs in `text`, ignoring case,
      stated one keyword at a time. */
  ghost predicate AllOccurFrom(keywords: seq<string>, start: nat, text: string)
    decreases |keywords| - start
  {
    start >= |keywords|
    || (OccursIgnoringCase(keywords[start], text) && AllOccurFrom(keywords, start + 1, text))
  }

  /** `AllOccurFrom` is the quantified statement. */
  lemma {:induction false} AllOccurFromMeans(keywords: seq<string>, start: nat, text: string)
    ensures AllOccurFrom(keywords, start, text) <==>
      forall i :: start <= i < |keywords| ==> OccursIgnoringCase(keywords[i], text)
    decreases |keywords| - start
  {
    if start < |keywords| {
      AllOccurFromMeans(keywords, start + 1, text);
    }
  }

  /** The `filter(...).length === ...length` test of the overcrowding rules:
      every keyword from `start` on occurs in `text`, ignoring case. */
  function AllFoundFrom(keywords: seq<string>, start: nat, text: string): (r: bool)
    requires start <= |keywords|
    ensures r <==> AllOccurFrom(keywords, start, text)
  {
    var rest := keywords[start..];
    var found := Filter(rest, (k: string) => Contains(Lower(text), Lower(k)));
    FilterKeepsAll(rest, (k: string) => Contains(Lower(text), Lower(k)));
    AllOccurFromMeans(keywords, start, text);
    assert forall i :: start <= i < |keywords| ==> keywords[i] == rest[i - start] && rest[i - start] in rest;
    |found| == |rest|
  }

  /** `firstKeywordMultipleSeoDescriptionOccurrences`: one finding when the
      repetition pattern matches the description more than once. */
  function FirstKeywordRepeated(description: string, keywords: seq<string>, countMatches: MatchCounter): (r: seq<Rule>)
    ensures r == [] || r == [PrimaryRepeated]
    ensures r != [] <==> countMatches(RepetitionPattern(keywords), description) > 1
  {
    When(countMatches(RepetitionPattern(keywords), description) > 1, PrimaryRepeated)
  }

  /** `validateSeoDescription` for one keyword: the keyword-missing finding
      and, independently, the length finding. */
  function ValidateSeoDescription(description: string, keyword: string): (r: seq<Rule>)
    ensures forall x <- r :: x == KeywordMissing(keyword) || x == DescriptionTooLong
    ensures KeywordMissing(keyword) in r <==> !OccursIgnoringCase(keyword, description)
    ensures multiset(r)[KeywordMissing(keyword)] == if !OccursIgnoringCase(keyword, description) then 1 else 0
    ensures multiset(r)[DescriptionTooLong] == if |description| > 160 then 1 else 0
  {
    When(!Contains(Lower(description), Lower(keyword)), KeywordMissing(keyword))
    + When(|description| > 160, DescriptionTooLong)
  }

  /** `validateSeoDescription` is run for the primary keyword and, when
      there is one, the secondary keyword: `k` is one of those. */
  predicate IsLeading(k: string, keywords: seq<string>) {
    (|keywords| >= 1 && k == keywords[0]) || (|keywords| >= 2 && k == keywords[1])
  }

  /** How many times `validateSeoDescription` is run. */
  function LeadingCount(keywords: seq<string>): nat {
    if |keywords| >= 2 then 2 else |keywords|
  }

  /** How many of the leading positions hold `k`. */
  function LeadingOccurrences(k: string, keywords: seq<string>): nat {
    (if |keywords| >= 1 && keywords[0] == k then 1 else 0)
    + (if |keywords| >= 2 && keywords[1] == k then 1 else 0)
  }

  /** A rule the description half can report once the field is set, naming
      a leading keyword when it is the keyword rule. */
  predicate DescriptionShape(rules: seq<Rule>, keywords: seq<string>) {
    forall x <- rules :: x.OfDescription() && !x.FieldMissing?
      && (x.KeywordMissing? ==> IsLeading(x.keyword, keywords))
  }

  lemma AtMostOneDescriptionShape(rules: seq<Rule>, rule: Rule, keywords: seq<string>)
    requires rules == [] || rules == [rule]
    requires rule.OfDescription() && !rule.FieldMissing? && !rule.KeywordMissing?
    ensures DescriptionShape(rules, keywords)
  {
  }

  lemma DescriptionShapeConcat(a: seq<Rule>, b: seq<Rule>, keywords: seq<string>)
    requires DescriptionShape(a, keywords) && DescriptionShape(b, keywords)
    ensures DescriptionShape(a + b, keywords)
  {
  }

  /** `validateSeoDescription` run for each leading keyword (source lines
      17-23): one keyword finding per missing leading keyword, and the length
      finding once per run. */
  function DescriptionKeywordRules(description: string, keywords: seq<string>): (r: seq<Rule>)
    ensures DescriptionShape(r, keywords)
    ensures |keywords| == 0 ==> r == []
    ensures PrimaryRepeated !in r && DescriptionOvercrowded !in r
  {
    if |keywords| == 0 then []
    else
      var first := ValidateSeoDescription(description, keywords[0]);
      LeadingShape(description, keywords, 0);
      if |keywords| == 1 then first
      else
        var second := ValidateSeoDescription(description, keywords[1]);
        LeadingShape(description, keywords, 1);
        DescriptionShapeConcat(first, second, keywords);
        first + second
  }

  lemma LeadingShape(description: string, keywords: seq<string>, i: nat)
    requires i < 2 && i < |keywords|
    ensures DescriptionShape(ValidateSeoDescription(description, keywords[i]), keywords)
  {
  }

  /** One run of `validateSeoDescription` reports the keyword rule for its
      own keyword only, once when that keyword is missing. */
  lemma SingleKeywordCount(description: string, keyword: string, k: string)
    ensures multiset(ValidateSeoDescription(description, keyword))[KeywordMissing(k)] ==
      if k == keyword && !OccursIgnoringCase(k, description) then 1 else 0
  {
    if k != keyword {
      assert KeywordMissing(k) !in ValidateSeoDescription(description, keyword);
    }
  }

  /** The per-keyword rules, run by run. */
  lemma DescriptionKeywordRuns(description: string, keywords: seq<string>)
    ensures |keywords| == 0 ==> DescriptionKeywordRules(description, keywords) == []
    ensures |keywords| == 1 ==> DescriptionKeywordRules(description, keywords) == ValidateSeoDescription(description, keywords[0])
    ensures |keywords| >= 2 ==> (DescriptionKeywordRules(description, keywords) ==
      ValidateSeoDescription(description, keywords[0]) + ValidateSeoDescription(description, keywords[1]))
  {
  }

  lemma TwoRunsCount(a: seq<Rule>, b: seq<Rule>, ka: string, kb: string, k: string, missing: bool)
    requires multiset(a)[KeywordMissing(k)] == if k == ka && missing then 1 else 0
    requires multiset(b)[KeywordMissing(k)] == if k == kb && missing then 1 else 0
    ensures multiset(a + b)[KeywordMissing(k)] ==
      if missing then (if k == ka then 1 else 0) + (if k == kb then 1 else 0) else 0
  {
    CountConcat(a, b, KeywordMissing(k));
  }

  /** The two runs for the primary and the secondary keyword. */
  lemma TwoLeadingRunsCount(description: string, k0: string, k1: string, k: string)
    ensures multiset(ValidateSeoDescription(description, k0) + ValidateSeoDescription(description, k1))[KeywordMissing(k)] ==
      if OccursIgnoringCase(k, description) then 0 else (if k == k0 then 1 else 0) + (if k == k1 then 1 else 0)
  {
    SingleKeywordCount(description, k0, k);
    SingleKeywordCount(description, k1, k);
    TwoRunsCount(ValidateSeoDescription(description, k0), ValidateSeoDescription(description, k1),
                 k0, k1, k, !OccursIgnoringCase(k, description));
  }

  /** A missing keyword is reported once per leading position it holds:
      twice when the primary and the secondary keyword are equal. */
  lemma LeadingKeywordCount(description: string, keywords: seq<string>, k: string)
    ensures multiset(DescriptionKeywordRules(description, keywords))[KeywordMissing(k)] ==
      if OccursIgnoringCase(k, description) then 0 else LeadingOccurrences(k, keywords)
  {
    DescriptionKeywordRuns(description, keywords);
    if |keywords| == 1 {
      SingleKeywordCount(description, keywords[0], k);
    } else if |keywords| >= 2 {
      TwoLeadingRunsCount(description, keywords[0], keywords[1], k);
    }
  }

  /** The per-keyword rules report a leading keyword exactly when it does not
      occur in the text, once per leading position it holds, and the length
      rule once per leading keyword when the text is longer than 160
      characters. */
  lemma DescriptionKeywordRulesCount(description: string, keywords: seq<string>)
    ensures var r := DescriptionKeywordRules(description, keywords);
      && (forall k | IsLeading(k, keywords) :: KeywordMissing(k) in r <==> !OccursIgnoringCase(k, description))
      && (forall k :: multiset(r)[KeywordMissing(k)] ==
            if OccursIgnoringCase(k, description) then 0 else LeadingOccurrences(k, keywords))
      && multiset(r)[DescriptionTooLong] == if |description| > 160 then LeadingCount(keywords) else 0
  {
    if |keywords| >= 2 {
      var a := ValidateSeoDescription(description, keywords[0]);
      var b := ValidateSeoDescription(description, keywords[1]);
      assert multiset(a + b) == multiset(a) + multiset(b);
    }
    forall k
      ensures multiset(DescriptionKeywordRules(description, keywords))[KeywordMissing(k)] ==
        if OccursIgnoringCase(k, description) then 0 else LeadingOccurrences(k, keywords)
    {
      LeadingKeywordCount(description, keywords, k);
    }
  }

  /** `validateSeoDescriptionWithAllKeywords`: one finding when every keyword
      from index 2 on occurs in the description, ignoring case. */
  function ValidateSeoDescriptionWithAllKeywords(description: string, keywords: seq<string>): (r: seq<Rule>)
    requires |keywords| >= 2
    ensures r == [] || r == [DescriptionOvercrowded]
    ensures r != [] <==> AllOccurFrom(keywords, 2, description)
  {
    When(AllFoundFrom(keywords, 2, description), DescriptionOvercrowded)
  }

  /** The description rules when the description field is set: the
      repetition rule, the per-keyword rules, then the overcrowding rule. */
  function PresentDescriptionRules(description: string, keywords: seq<string>, countMatches: MatchCounter): (r: seq<Rule>)
    ensures DescriptionShape(r, keywords)
    ensures |keywords| == 0 ==> r == [] || r == [PrimaryRepeated]
  {
    var repeated := FirstKeywordRepeated(description, keywords, countMatches);
    var perKeyword := DescriptionKeywordRules(description, keywords);
    var crowded := if |keywords| >= 3 then ValidateSeoDescriptionWithAllKeywords(description, keywords) else [];
    AtMostOneDescriptionShape(repeated, PrimaryRepeated, keywords);
    AtMostOneDescriptionShape(crowded, DescriptionOvercrowded, keywords);
    DescriptionShapeConcat(repeated, perKeyword, keywords);
    DescriptionShapeConcat(repeated + perKeyword, crowded, keywords);
    repeated + perKeyword + crowded
  }

  /** How often each rule fires on a set description: the repetition rule
      once when the pattern matches more than once, the length rule once per
      leading keyword when the text is longer than 160 characters, the
      overcrowding rule once when there are at least three keywords and all
      from the third on occur, and the keyword rule for a missing keyword
      once per leading position it holds. */
  lemma DescriptionCounts(description: string, keywords: seq<string>, countMatches: MatchCounter)
    ensures var r := PresentDescriptionRules(description, keywords, countMatches);
      && multiset(r)[PrimaryRepeated] ==
        (if countMatches(RepetitionPattern(keywords), description) > 1 then 1 else 0)
      && multiset(r)[DescriptionTooLong] ==
        (if |description| > 160 then LeadingCount(keywords) else 0)
      && multiset(r)[DescriptionOvercrowded] ==
        (if |keywords| >= 3 && AllOccurFrom(keywords, 2, description) then 1 else 0)
      && (forall k :: multiset(r)[KeywordMissing(k)] ==
            if OccursIgnoringCase(k, description) then 0 else LeadingOccurrences(k, keywords))
  {
    var repeated := FirstKeywordRepeated(description, keywords, countMatches);
    var perKeyword := DescriptionKeywordRules(description, keywords);
    var crowded := if |keywords| >= 3 then ValidateSeoDescriptionWithAllKeywords(description, keywords) else [];
    DescriptionKeywordRulesCount(description, keywords);
    ThreePartCount(repeated, perKeyword, crowded, PrimaryRepeated);
    ThreePartCount(repeated, perKeyword, crowded, DescriptionTooLong);
    ThreePartCount(repeated, perKeyword, crowded, DescriptionOvercrowded);
    forall k
      ensures multiset(PresentDescriptionRules(description, keywords, countMatches))[KeywordMissing(k)] ==
        if OccursIgnoringCase(k, description) then 0 else LeadingOccurrences(k, keywords)
    {
      DescriptionKeywordCount(description, keywords, countMatches, k);
    }
  }

  /** The keyword-rule count of a set description comes from the per-keyword
      rules alone. */
  lemma DescriptionKeywordCount(description: string, keywords: seq<string>, countMatches: MatchCounter, k: string)
    ensures multiset(PresentDescriptionRules(description, keywords, countMatches))[KeywordMissing(k)] ==
      if OccursIgnoringCase(k, description) then 0 else LeadingOccurrences(k, keywords)
  {
    var repeated := FirstKeywordRepeated(description, keywords, countMatches);
    var perKeyword := DescriptionKeywordRules(description, keywords);
    var crowded := if |keywords| >= 3 then ValidateSeoDescriptionWithAllKeywords(description, keywords) else [];
    LeadingKeywordCount(description, keywords, k);
    ThreePartCount(repeated, perKeyword, crowded, KeywordMissing(k));
    assert KeywordMissing(k) !in repeated && KeywordMissing(k) !in crowded;
  }

  /** On a set description, the keyword rule fires for a leading keyword
      exactly when that keyword does not occur in the text, ignoring case. */
  lemma DescriptionKeywordMissing(description: string, keywords: seq<string>, countMatches: MatchCounter)
    ensures forall k | IsLeading(k, keywords) ::
      KeywordMissing(k) in PresentDescriptionRules(description, keywords, countMatches) <==>
      !OccursIgnoringCase(k, description)
  {
    var repeated := FirstKeywordRepeated(description, keywords, countMatches);
    var perKeyword := DescriptionKeywordRules(description, keywords);
    var crowded := if |keywords| >= 3 then ValidateSeoDescriptionWithAllKeywords(description, keywords) else [];
    DescriptionKeywordRulesCount(description, keywords);
    assert forall k :: KeywordMissing(k) !in repeated && KeywordMissing(k) !in crowded;
  }

  /** The description half of `analyzeFrontmatter` (source lines 12-27), for
      the description field's text, or None when the field is not truthy. */
  function DescriptionRules(description: Option<string>, keywords: seq<string>, countMatches: MatchCounter): (r: seq<Rule>)
    ensures description.None? ==> r == [FieldMissing]
    ensures description.Some? ==> r == PresentDescriptionRules(description.value, keywords, countMatches)
  {
    match description
    case None => [FieldMissing]
    case Some(d) => PresentDescriptionRules(d, keywords, countMatches)
  }

  /** `validateSeoTitle`: the keyword-missing finding and, independently, the
      length finding. */
  function ValidateSeoTitle(title: string, keyword: string): (r: seq<Rule>)
    ensures forall x <- r :: x == KeywordMissing(keyword) || x == SeoTitleTooLong
    ensures KeywordMissing(keyword) in r <==> !OccursIgnoringCase(keyword, title)
    ensures SeoTitleTooLong in r <==> |title| > 60
    ensures multiset(r)[KeywordMissing(keyword)] == if !OccursIgnoringCase(keyword, title) then 1 else 0
    ensures multiset(r)[SeoTitleTooLong] == if |title| > 60 then 1 else 0
  {
    When(!Contains(Lower(title), Lower(keyword)), KeywordMissing(keyword))
    + When(|title| > 60, SeoTitleTooLong)
  }

  /** `validateSeoTitleWithAllKeywords`: one finding when every keyword,
      the primary and secondary included, occurs in the title ignoring case. */
  function ValidateSeoTitleWithAllKeywords(title: string, keywords: seq<string>): (r: seq<Rule>)
    ensures r == [] || r == [SeoTitleOvercrowded]
    ensures r != [] <==> AllOccurFrom(keywords, 0, title)
  {
    When(AllFoundFrom(keywords, 0, title), SeoTitleOvercrowded)
  }

  /** A rule the title half can report once the field is set, naming the
      primary keyword when it is the keyword rule. */
  predicate TitleShape(rules: seq<Rule>, keywords: seq<string>) {
    forall x <- rules :: x.OfTitle() && !x.FieldMissing?
      && (x.KeywordMissing? ==> |keywords| >= 1 && x.keyword == keywords[0])
  }

  lemma AtMostOneTitleShape(rules: seq<Rule>, rule: Rule, keywords: seq<string>)
    requires rules == [] || rules == [rule]
    requires rule.OfTitle() && !rule.FieldMissing? && !rule.KeywordMissing?
    ensures TitleShape(rules, keywords)
  {
  }

  lemma TitleShapeConcat(a: seq<Rule>, b: seq<Rule>, keywords: seq<string>)
    requires TitleShape(a, keywords) && TitleShape(b, keywords)
    ensures TitleShape(a + b, keywords)
  {
  }

  /** `validateSeoTitle` for the primary keyword, kept only when the keyword
      does not partially match the title (source lines 31-36). The array the
      source tests is always truthy, so both the keyword and the length
      finding disappear when the primary keyword partially matches. */
  function TitleKeywordRules(title: string, keywords: seq<string>): (r: seq<Rule>)
    ensures TitleShape(r, keywords)
    ensures SeoTitleOvercrowded !in r
    ensures SeoTitleTooLong in r <==>
      |keywords| >= 1 && !PartialMatch(keywords[0], title) && |title| > 60
    ensures |keywords| >= 1 ==> (KeywordMissing(keywords[0]) in r <==>
      !PartialMatch(keywords[0], title) && !OccursIgnoringCase(keywords[0], title))
    ensures multiset(r)[SeoTitleTooLong] ==
      if |keywords| >= 1 && !PartialMatch(keywords[0], title) && |title| > 60 then 1 else 0
    ensures |keywords| >= 1 ==> (multiset(r)[KeywordMissing(keywords[0])] ==
      if !PartialMatch(keywords[0], title) && !OccursIgnoringCase(keywords[0], title) then 1 else 0)
  {
    if |keywords| >= 1 && !PartialMatch(keywords[0], title) then ValidateSeoTitle(title, keywords[0]) else []
  }

  /** The title rules when the title field is set (source lines 31-39): the
      primary-keyword rules, then the overcrowding rule. */
  function PresentTitleRules(title: string, keywords: seq<string>): (r: seq<Rule>)
    ensures TitleShape(r, keywords)
    ensures SeoTitleTooLong in r <==>
      |keywords| >= 1 && !PartialMatch(keywords[0], title) && |title| > 60
    ensures |keywords| >= 1 ==> (KeywordMissing(keywords[0]) in r <==>
      !PartialMatch(keywords[0], title) && !OccursIgnoringCase(keywords[0], title))
  {
    var checked := TitleKeywordRules(title, keywords);
    var crowded := if |keywords| >= 3 then ValidateSeoTitleWithAllKeywords(title, keywords) else [];
    AtMostOneTitleShape(crowded, SeoTitleOvercrowded, keywords);
    TitleShapeConcat(checked, crowded, keywords);
    checked + crowded
  }

  /** On a set title the length and keyword findings each occur at most
      once: exactly once when the primary keyword does not partially match
      and, respectively, the title is too long or lacks the keyword. */
  lemma TitleKeywordCounts(title: string, keywords: seq<string>)
    ensures multiset(PresentTitleRules(title, keywords))[SeoTitleTooLong] ==
      if |keywords| >= 1 && !PartialMatch(keywords[0], title) && |title| > 60 then 1 else 0
    ensures |keywords| >= 1 ==> (multiset(PresentTitleRules(title, keywords))[KeywordMissing(keywords[0])] ==
      if !PartialMatch(keywords[0], title) && !OccursIgnoringCase(keywords[0], title) then 1 else 0)
  {
    var checked := TitleKeywordRules(title, keywords);
    var crowded := if |keywords| >= 3 then ValidateSeoTitleWithAllKeywords(title, keywords) else [];
    assert multiset(checked + crowded) == multiset(checked) + multiset(crowded);
  }

  /** On a set title the overcrowding rule fires once when there are at least
      three keywords and all of them occur, ignoring case, and never
      otherwise. */
  lemma TitleOvercrowdedCount(title: string, keywords: seq<string>)
    ensures multiset(PresentTitleRules(title, keywords))[SeoTitleOvercrowded] ==
      if |keywords| >= 3 && AllOccurFrom(keywords, 0, title) then 1 else 0
  {
    var checked := TitleKeywordRules(title, keywords);
    var crowded := if |keywords| >= 3 then ValidateSeoTitleWithAllKeywords(title, keywords) else [];
    assert multiset(checked + crowded) == multiset(checked) + multiset(crowded);
  }

  /** The title half of `analyzeFrontmatter` (source lines 28-40), for the
      title field's text, or None when the field is not truthy. */
  function TitleRules(title: Option<string>, keywords: seq<string>): (r: seq<Rule>)
    ensures title.None? ==> r == [FieldMissing]
    ensures title.Some? ==> r == PresentTitleRules(title.value, keywords)
  {
    match title
    case None => [FieldMissing]
    case Some(t) => PresentTitleRules(t, keywords)
  }

  /** The keyword-missing title finding fires exactly when the title is set
      and the non-empty primary keyword does not partially match it: a
      keyword that occurs whole also matches partially, and the empty keyword
      occurs everywhere. */
  lemma TitleKeywordMissingIffNoPartialMatch(title: Option<string>, keywords: seq<string>)
    requires |keywords| >= 1
    ensures KeywordMissing(keywords[0]) in TitleRules(title, keywords) <==>
      title.Some? && keywords[0] != "" && !PartialMatch(keywords[0], title.value)
  {
    if title.Some? {
      if keywords[0] == "" {
        EmptyOccurs(Lower(title.value));
        assert Lower(keywords[0]) == "";
      } else if OccursIgnoringCase(keywords[0], title.value) {
        WholeKeywordMatches(keywords[0], title.value);
      }
    }
  }

  /** `analyzeFrontmatter`: the description findings, labelled with the
      description field, then the title findings, labelled with the title
      field. */
  function AnalyzeFrontmatter(data: Data, configuration: FrontmatterConfiguration, keywords: seq<string>, countMatches: MatchCounter): (r: seq<AnalyzerResult>)
    requires HoldsText(data, configuration.seoTitleField)
    requires HoldsText(data, configuration.seoDescriptionField)
    ensures var n := |DescriptionRules(TextField(data, configuration.seoDescriptionField), keywords, countMatches)|;
      && |r| == n + |TitleRules(TextField(data, configuration.seoTitleField), keywords)|
      && (forall i :: 0 <= i < n ==> r[i].title == configuration.seoDescriptionField)
      && (forall i :: n <= i < |r| ==> r[i].title == configuration.seoTitleField)
    ensures forall f <- r :: f.AnalyzerError? && f.resultType == Frontmatter
  {
    Findings(configuration.seoDescriptionField, DescriptionRules(TextField(data, configuration.seoDescriptionField), keywords, countMatches))
    + Findings(configuration.seoTitleField, TitleRules(TextField(data, configuration.seoTitleField), keywords))
  }

  /** With distinct field names, each finding of the frontmatter analysis
      occurs as often as its rule fires on that field. */
  lemma AnalyzeFrontmatterCounts(data: Data, configuration: FrontmatterConfiguration, keywords: seq<string>, countMatches: MatchCounter, rule: Rule)
    requires HoldsText(data, configuration.seoTitleField)
    requires HoldsText(data, configuration.seoDescriptionField)
    requires configuration.seoTitleField != configuration.seoDescriptionField
    ensures var r := AnalyzeFrontmatter(data, configuration, keywords, countMatches);
      && multiset(r)[Finding(configuration.seoDescriptionField, rule)] ==
        multiset(DescriptionRules(TextField(data, configuration.seoDescriptionField), keywords, countMatches))[rule]
      && multiset(r)[Finding(configuration.seoTitleField, rule)] ==
        multiset(TitleRules(TextField(data, configuration.seoTitleField), keywords))[rule]
  {
    var description := DescriptionRules(TextField(data, configuration.seoDescriptionField), keywords, countMatches);
    var title := TitleRules(TextField(data, configuration.seoTitleField), keywords);
    var ds := Findings(configuration.seoDescriptionField, description);
    var ts := Findings(configuration.seoTitleField, title);
    FindingsCount(configuration.seoDescriptionField, description, rule);
    FindingsCount(configuration.seoTitleField, title, rule);
    assert Finding(configuration.seoDescriptionField, rule) !in ts;
    assert Finding(configuration.seoTitleField, rule) !in ds;
    assert multiset(ds + ts) == multiset(ds) + multiset(ts);
  }
}

=== FILE: keywords.dfy ===
/** Keyword extraction from the frontmatter. The same function appears twice
    in the source (as the default export of the keywords file and as
    `extractKeywords` in the analyzer entry point), with identical bodies; it
    is modelled once. */
module Keywords {
  import opened Wrappers
  import opened Metadata

  /** `data['keywords'] || data['Keywords']`: the first operand when it is
      truthy, otherwise the second one (which may be falsy or missing). */
  function KeywordsValue(data: Data): Option<Value> {
    if IsSet(data, "keywords") then Some(data["keywords"])
    else if "Keywords" in data then Some(data["Keywords"])
    else None
  }

  /** The selected keywords value, when truthy, is a list: the callers treat
      the result as an array of strings. */
  predicate KeywordsWellTyped(data: Data) {
    match KeywordsValue(data)
    case None => true
    case Some(v) => Truthy(v) ==> v.Items?
  }

  /** The keyword list, ranked by importance: `keywords` when truthy, else
      `Keywords` when truthy, else empty. The stored list is returned as it
      is, with nothing filtered, reordered or deduplicated. */
  function ExtractKeywords(data: Data): (r: seq<string>)
    requires KeywordsWellTyped(data)
    ensures !IsSet(data, "keywords") && !IsSet(data, "Keywords") ==> r == []
    ensures IsSet(data, "keywords") ==> r == data["keywords"].items
    ensures !IsSet(data, "keywords") && IsSet(data, "Keywords") ==> r == data["Keywords"].items
  {
    match KeywordsValue(data)
    case None => []
    case Some(v) => if Truthy(v) then v.items else []
  }
}

=== FILE: legacy_analyzer.dfy ===
/** The second pair of older analyzers: a file analyzer that only checks for a
    first-level header, and a frontmatter analyzer on the fixed fields
    `seo_title` and `seo_description` that adds length limits and labels each
    finding with the field it is about. */
module LegacyAnalyzer {
  import opened Wrappers
  import opened Strings
  import opened Seqs
  import opened Ast
  import opened Metadata
  import opened LegacyFrontmatter
  import Title

  const ArticleTitleNotFound := LegacyResult("Article Title", "Not found")

  /** `FileAnalyzer.analyze`: 'Not found' when no top-level node is a
      first-level header, nothing otherwise. The keyword is not used. */
  function FileAnalyze(children: seq<AstChild>, keyword: string): (r: seq<LegacyResult>)
    ensures r == [] || r == [ArticleTitleNotFound]
    ensures r != [] <==> forall c <- children :: !IsTopHeader(c)
  {
    if Find(children, IsTopHeader).None? then [ArticleTitleNotFound] else []
  }

  /** The file analyzer's answer is the same for every keyword. */
  lemma FileAnalyzeIgnoresKeyword(children: seq<AstChild>, k1: string, k2: string)
    ensures FileAnalyze(children, k1) == FileAnalyze(children, k2)
  {
  }

  /** The file analyzer is the 'Not found' case of the later title rule on
      a post whose configured title field is falsy. */
  lemma FileAnalyzeIsTitleNotFound(data: Data, children: seq<AstChild>, keyword: string,
                                   keywords: seq<string>, configuration: FrontmatterConfiguration)
    requires HoldsText(data, configuration.titleField)
    requires !IsSet(data, configuration.titleField)
    ensures FileAnalyze(children, keyword) != [] <==>
      Title.TitleNotFound in Title.ValidateTitle(data, children, keywords, configuration)
  {
    var headers := Title.TopHeaders(children);
    if |headers| > 0 {
      assert headers[0] in children && IsTopHeader(headers[0]);
    }
  }

  const TitleLimit := 60

  const DescriptionLimit := 160

  const TitleTooLong := LegacyResult(SeoTitleKey, "SEO Title should have 60 Characters max.")

  const DescriptionTooLong := LegacyResult(SeoDescriptionKey, "SEO Description should 160 characters max.")

  /** The length findings differ from the other findings of their field. */
  lemma TooLongDiffers(keyword: string)
    ensures TitleTooLong.message != NotFoundMessage && TitleTooLong.message != KeywordMessage(keyword)
    ensures DescriptionTooLong.message != NotFoundMessage && DescriptionTooLong.message != KeywordMessage(keyword)
  {
    // The length messages end in '.', the others in 'd'.
    var t := TitleTooLong.message;
    var d := DescriptionTooLong.message;
    var k := KeywordMessage(keyword);
    assert |t| == 40 && t[39] == '.';
    assert |d| == 42 && d[41] == '.';
    assert k[|k| - 1] == 'd';
    assert |NotFoundMessage| == 9;
  }

  /** The three checks on one field, all labelled with the field's name:
      'not found' when it is falsy; otherwise the keyword finding when it
      lacks the keyword and, independently, `tooLong` when it is longer than
      `limit`. */
  function FieldChecks(value: Option<string>, field: string, keyword: string, limit: nat, tooLong: LegacyResult): (r: seq<LegacyResult>)
    requires tooLong.title == field
    requires tooLong.message != NotFoundMessage && tooLong.message != KeywordMessage(keyword)
    ensures |r| <= 2
    ensures forall f <- r :: f.title == field
    ensures value.None? ==> r == [LegacyResult(field, NotFoundMessage)]
    ensures value.Some? ==> LegacyResult(field, NotFoundMessage) !in r
    ensures value.Some? ==> (KeywordFinding(field, keyword) in r <==> !Occurs(keyword, value.value))
    ensures value.Some? ==> (tooLong in r <==> |value.value| > limit)
    ensures value.Some? ==> forall f <- r :: f == KeywordFinding(field, keyword) || f == tooLong
  {
    FieldFindings(value, field, field, keyword) + When(value.Some? && |value.value| > limit, tooLong)
  }

  /** The checks on `seo_title`, with the 60-character limit. */
  function TitleChecks(data: Data, keyword: string): seq<LegacyResult>
    requires WellTyped(data)
  {
    TooLongDiffers(keyword);
    FieldChecks(TextField(data, SeoTitleKey), SeoTitleKey, keyword, TitleLimit, TitleTooLong)
  }

  /** The checks on `seo_description`, with the 160-character limit. */
  function DescriptionChecks(data: Data, keyword: string): seq<LegacyResult>
    requires WellTyped(data)
  {
    TooLongDiffers(keyword);
    FieldChecks(TextField(data, SeoDescriptionKey), SeoDescriptionKey, keyword, DescriptionLimit, DescriptionTooLong)
  }

  /** `FrontmatterAnalyzer.analyze` in `src/analyzer.ts`: the title checks
      with a 60-character limit, then the description checks with a
      160-character limit, at most two findings per field. */
  function FrontmatterAnalyze(data: Data, keyword: string): (r: seq<LegacyResult>)
    requires WellTyped(data)
    ensures |r| <= 4
    ensures forall f <- r :: f.title == SeoTitleKey || f.title == SeoDescriptionKey
    ensures forall i, j :: 0 <= i < j < |r| && r[i].title == SeoDescriptionKey ==> r[j].title == SeoDescriptionKey
  {
    LabelsDiffer();
    var title := TitleChecks(data, keyword);
    var description := DescriptionChecks(data, keyword);
    assert forall j :: 0 <= j < |title| ==> title[j] in title;
    assert forall i :: |title| <= i < |title| + |description| ==> (title + description)[i] in description;
    title + description
  }

  /** The findings titled after each field are exactly that field's checks:
      falsy, a single 'not found'; truthy, the keyword and the length
      findings as the field's own content decides. */
  lemma FrontmatterFieldFindings(data: Data, keyword: string)
    requires WellTyped(data)
    ensures Filter(FrontmatterAnalyze(data, keyword), Labelled(SeoTitleKey)) == TitleChecks(data, keyword)
    ensures Filter(FrontmatterAnalyze(data, keyword), Labelled(SeoDescriptionKey)) == DescriptionChecks(data, keyword)
  {
    LabelsDiffer();
    var title := TitleChecks(data, keyword);
    var description := DescriptionChecks(data, keyword);
    assert FrontmatterAnalyze(data, keyword) == title + description;
    FilterConcat(title, description, Labelled(SeoTitleKey));
    FilterKeepsEvery(title, Labelled(SeoTitleKey));
    FilterDropsEvery(description, Labelled(SeoTitleKey));
    assert title + [] == title;
    FilterConcat(title, description, Labelled(SeoDescriptionKey));
    FilterDropsEvery(title, Labelled(SeoDescriptionKey));
    FilterKeepsEvery(description, Labelled(SeoDescriptionKey));
    assert [] + description == description;
  }

  predicate IsLengthFinding(f: LegacyResult) {
    f == TitleTooLong || f == DescriptionTooLong
  }

  /** Without its length findings, this analyzer is the first analyzer with
      each keyword finding labelled by its own field. */
  lemma FrontmatterAnalyzeExtendsCorrected(data: Data, keyword: string)
    requires WellTyped(data)
    ensures Filter(FrontmatterAnalyze(data, keyword), (f: LegacyResult) => !IsLengthFinding(f))
         == AnalyzeCorrected(data, keyword)
  {
    TooLongDiffers(keyword);
    LabelsDiffer();
    var short := (f: LegacyResult) => !IsLengthFinding(f);
    var t := TextField(data, SeoTitleKey);
    var d := TextField(data, SeoDescriptionKey);
    assert FrontmatterAnalyze(data, keyword)
        == FieldFindings(t, SeoTitleKey, SeoTitleKey, keyword) + When(t.Some? && |t.value| > TitleLimit, TitleTooLong)
         + (FieldFindings(d, SeoDescriptionKey, SeoDescriptionKey, keyword) + When(d.Some? && |d.value| > DescriptionLimit, DescriptionTooLong));
    LengthFindingsDropped(t, SeoTitleKey, keyword, TitleLimit, TitleTooLong);
    LengthFindingsDropped(d, SeoDescriptionKey, keyword, DescriptionLimit, DescriptionTooLong);
    FilterConcat(TitleChecks(data, keyword), DescriptionChecks(data, keyword), short);
  }

  lemma LengthFindingsDropped(value: Option<string>, field: string, keyword: string, limit: nat, tooLong: LegacyResult)
    requires IsLengthFinding(tooLong) && tooLong.title == field
    requires tooLong.message != NotFoundMessage && tooLong.message != KeywordMessage(keyword)
    ensures Filter(FieldChecks(value, field, keyword, limit, tooLong), (f: LegacyResult) => !IsLengthFinding(f))
         == FieldFindings(value, field, field, keyword)
  {
    var short := (f: LegacyResult) => !IsLengthFinding(f);
    var kept := FieldFindings(value, field, field, keyword);
    var pushed := When(value.Some? && |value.value| > limit, tooLong);
    assert forall f <- kept :: !IsLengthFinding(f) by {
      TooLongDiffers(keyword);
    }
    FilterConcat(kept, pushed, short);
    FilterKeepsEvery(kept, short);
    FilterDropsEvery(pushed, short);
    assert kept + [] == kept;
  }
}

=== FILE: legacy_frontmatter.dfy ===
/** The first frontmatter analyzer, still behind the analyze command: the
    field names `seo_title` and `seo_description` are fixed in the code, the
    keyword is a single string and it is searched case-sensitively. */
module LegacyFrontmatter {
  import opened Wrappers
  import opened Strings
  import opened Seqs
  import opened Metadata

  /** The older analyzers' result record: a title and a message, with no
      category and no location. */
  datatype LegacyResult = LegacyResult(title: string, message: string)

  const SeoTitleKey := "seo_title"

  const SeoDescriptionKey := "seo_description"

  const NotFoundMessage := "not found"

  function KeywordMessage(keyword: string): string {
    "Keyword '" + keyword + "' not found"
  }

  const TitleMissing := LegacyResult(SeoTitleKey, NotFoundMessage)

  const DescriptionMissing := LegacyResult(SeoDescriptionKey, NotFoundMessage)

  /** The keyword finding under a given field. */
  function KeywordFinding(field: string, keyword: string): LegacyResult {
    LegacyResult(field, KeywordMessage(keyword))
  }

  /** The findings carrying a given title. */
  function Labelled(field: string): LegacyResult -> bool {
    (f: LegacyResult) => f.title == field
  }

  /** Both fixed fields, when present, hold strings: the analyzer calls
      `indexOf` on them. */
  predicate WellTyped(data: Data) {
    HoldsText(data, SeoTitleKey) && HoldsText(data, SeoDescriptionKey)
  }

  /** A truthy field that does not contain the keyword as a substring,
      compared case-sensitively: `value.indexOf(keyword) === -1`. */
  ghost predicate Lacks(value: Option<string>, keyword: string) {
    value.Some? && !Occurs(keyword, value.value)
  }

  lemma LabelsDiffer()
    ensures SeoTitleKey != SeoDescriptionKey
  {
    assert |SeoTitleKey| == 9 && |SeoDescriptionKey| == 15;
  }

  lemma KeywordMessageLength(keyword: string)
    ensures |KeywordMessage(keyword)| == 20 + |keyword|
    ensures KeywordMessage(keyword) != NotFoundMessage
  {
    assert |NotFoundMessage| == 9;
  }

  /** The two checks on one field: 'not found' under `missingField` when the
      field is falsy, otherwise the keyword finding under `keywordField` when
      the field lacks the keyword. */
  function FieldFindings(value: Option<string>, missingField: string, keywordField: string, keyword: string): (r: seq<LegacyResult>)
    ensures value.None? ==> r == [LegacyResult(missingField, NotFoundMessage)]
    ensures value.Some? && Lacks(value, keyword) ==> r == [KeywordFinding(keywordField, keyword)]
    ensures value.Some? && !Lacks(value, keyword) ==> r == []
  {
    When(value.None?, LegacyResult(missingField, NotFoundMessage))
    + When(value.Some? && !Contains(value.value, keyword), KeywordFinding(keywordField, keyword))
  }

  /** `FrontmatterAnalyzer.analyze` as written: the title checks, then the
      description checks, at most one finding for each field. The keyword
      finding for the description is labelled `seo_title`, so both keyword
      findings carry the same title and message. */
  function Analyze(data: Data, keyword: string): (r: seq<LegacyResult>)
    requires WellTyped(data)
    ensures |r| <= 2
    ensures forall f <- r :: f == TitleMissing || f == DescriptionMissing || f == KeywordFinding(SeoTitleKey, keyword)
    ensures !IsSet(data, SeoTitleKey) ==> |r| > 0 && r[0] == TitleMissing
    ensures Lacks(TextField(data, SeoTitleKey), keyword) ==> |r| > 0 && r[0] == KeywordFinding(SeoTitleKey, keyword)
  {
    var title := FieldFindings(TextField(data, SeoTitleKey), SeoTitleKey, SeoTitleKey, keyword);
    var description := FieldFindings(TextField(data, SeoDescriptionKey), SeoDescriptionKey, SeoTitleKey, keyword);
    title + description
  }

  /** A field's checks report its keyword finding once when the field lacks
      the keyword, and not at all otherwise. */
  lemma FieldKeywordCount(value: Option<string>, missingField: string, keywordField: string, keyword: string)
    ensures multiset(FieldFindings(value, missingField, keywordField, keyword))[KeywordFinding(keywordField, keyword)]
         == if Lacks(value, keyword) then 1 else 0
  {
    KeywordMessageLength(keyword);
  }

  /** The analyzer as written reports 'not found' exactly for the falsy
      fields. */
  lemma AnalyzeFindings(data: Data, keyword: string)
    requires WellTyped(data)
    ensures var r := Analyze(data, keyword);
      && (TitleMissing in r <==> !IsSet(data, SeoTitleKey))
      && (DescriptionMissing in r <==> !IsSet(data, SeoDescriptionKey))
  {
    LabelsDiffer();
    KeywordMessageLength(keyword);
  }

  /** The analyzer as written reports each 'not found' finding at most once:
      once for a falsy field and not at all for a truthy one. */
  lemma AnalyzeMissingCount(data: Data, keyword: string)
    requires WellTyped(data)
    ensures multiset(Analyze(data, keyword))[TitleMissing] == if IsSet(data, SeoTitleKey) then 0 else 1
    ensures multiset(Analyze(data, keyword))[DescriptionMissing] == if IsSet(data, SeoDescriptionKey) then 0 else 1
  {
    LabelsDiffer();
    KeywordMessageLength(keyword);
  }

  /** The analyzer as written reports one `seo_title` keyword finding for
      each truthy field that lacks the keyword, the description included. */
  lemma AnalyzeKeywordCount(data: Data, keyword: string)
    requires WellTyped(data)
    ensures multiset(Analyze(data, keyword))[KeywordFinding(SeoTitleKey, keyword)] ==
      (if Lacks(TextField(data, SeoTitleKey), keyword) then 1 else 0)
      + (if Lacks(TextField(data, SeoDescriptionKey), keyword) then 1 else 0)
  {
    var title := FieldFindings(TextField(data, SeoTitleKey), SeoTitleKey, SeoTitleKey, keyword);
    var description := FieldFindings(TextField(data, SeoDescriptionKey), SeoDescriptionKey, SeoTitleKey, keyword);
    assert Analyze(data, keyword) == title + description;
    FieldKeywordCount(TextField(data, SeoTitleKey), SeoTitleKey, SeoTitleKey, keyword);
    FieldKeywordCount(TextField(data, SeoDescriptionKey), SeoDescriptionKey, SeoTitleKey, keyword);
    assert multiset(title + description) == multiset(title) + multiset(description);
  }

  /** The analyzer with each keyword finding labelled by the field it is
      about, as the later analyzer in `src/analyzer.ts` does. */
  function AnalyzeCorrected(data: Data, keyword: string): (r: seq<LegacyResult>)
    requires WellTyped(data)
    ensures |r| <= 2
    ensures forall f <- r :: f.title == SeoTitleKey || f.title == SeoDescriptionKey
    ensures !IsSet(data, SeoTitleKey) ==> |r| > 0 && r[0] == TitleMissing
    ensures Lacks(TextField(data, SeoTitleKey), keyword) ==> |r| > 0 && r[0] == KeywordFinding(SeoTitleKey, keyword)
  {
    var title := FieldFindings(TextField(data, SeoTitleKey), SeoTitleKey, SeoTitleKey, keyword);
    var description := FieldFindings(TextField(data, SeoDescriptionKey), SeoDescriptionKey, SeoDescriptionKey, keyword);
    title + description
  }

  /** Which findings the corrected analyzer reports: 'not found' for each
      falsy field and a keyword finding, under the field's own name, for each
      truthy field that lacks the keyword. */
  lemma AnalyzeCorrectedFindings(data: Data, keyword: string)
    requires WellTyped(data)
    ensures var r := AnalyzeCorrected(data, keyword);
      && (TitleMissing in r <==> !IsSet(data, SeoTitleKey))
      && (DescriptionMissing in r <==> !IsSet(data, SeoDescriptionKey))
      && (KeywordFinding(SeoTitleKey, keyword) in r <==> Lacks(TextField(data, SeoTitleKey), keyword))
      && (KeywordFinding(SeoDescriptionKey, keyword) in r <==> Lacks(TextField(data, SeoDescriptionKey), keyword))
  {
    LabelsDiffer();
    KeywordMessageLength(keyword);
  }

  /** In the corrected analyzer the findings titled after a field are that
      field's own checks, so there is at most one of them. */
  lemma CorrectedFieldFindings(data: Data, keyword: string, key: string)
    requires WellTyped(data)
    requires key == SeoTitleKey || key == SeoDescriptionKey
    ensures Filter(AnalyzeCorrected(data, keyword), Labelled(key)) == FieldFindings(TextField(data, key), key, key, keyword)
    ensures |Filter(AnalyzeCorrected(data, keyword), Labelled(key))| <= 1
  {
    LabelsDiffer();
    var a := FieldFindings(TextField(data, SeoTitleKey), SeoTitleKey, SeoTitleKey, keyword);
    var b := FieldFindings(TextField(data, SeoDescriptionKey), SeoDescriptionKey, SeoDescriptionKey, keyword);
    FilterConcat(a, b, Labelled(key));
    if key == SeoTitleKey {
      FilterKeepsEvery(a, Labelled(key));
      FilterDropsEvery(b, Labelled(key));
      assert Filter(a, Labelled(key)) + Filter(b, Labelled(key)) == a;
    } else {
      FilterDropsEvery(a, Labelled(key));
      FilterKeepsEvery(b, Labelled(key));
      assert Filter(a, Labelled(key)) + Filter(b, Labelled(key)) == b;
    }
  }

  /** In the corrected analyzer the findings titled after a field depend on
      that field alone: two documents that agree on the field get the same
      findings under its name, whatever the other field holds. */
  lemma CorrectedLabelsNameTheirField(d1: Data, d2: Data, keyword: string, key: string)
    requires WellTyped(d1) && WellTyped(d2)
    requires key == SeoTitleKey || key == SeoDescriptionKey
    requires TextField(d1, key) == TextField(d2, key)
    ensures Filter(AnalyzeCorrected(d1, keyword), Labelled(key)) == Filter(AnalyzeCorrected(d2, keyword), Labelled(key))
  {
    CorrectedFieldFindings(d1, keyword, key);
    CorrectedFieldFindings(d2, keyword, key);
  }

  /** A post whose title contains the keyword and whose description does not. */
  const OffKeywordDescription: Data := map[SeoTitleKey := Text("k"), SeoDescriptionKey := Text("x")]

  /** With the analyzer as written, the post above gets a single finding and
      it is titled `seo_title`, although the title contains the keyword; the
      corrected analyzer titles it `seo_description`. */
  lemma DescriptionFindingMislabelled()
    ensures WellTyped(OffKeywordDescription)
    ensures Occurs("k", OffKeywordDescription[SeoTitleKey].text)
    ensures Analyze(OffKeywordDescription, "k") == [KeywordFinding(SeoTitleKey, "k")]
    ensures AnalyzeCorrected(OffKeywordDescription, "k") == [KeywordFinding(SeoDescriptionKey, "k")]
  {
    LabelsDiffer();
    var d := OffKeywordDescription;
    assert d[SeoTitleKey] == Text("k") && d[SeoDescriptionKey] == Text("x");
    assert OccursAt("k", "k", 0);
    assert !Occurs("k", "x") by {
      assert "x"[0] != "k"[0];
      assert forall i :: OccursAt("k", "x", i) ==> "x"[0..1] == "x" && "x"[0] == "k"[0];
    }
  }

  /** Neither analyzer looks at a field's length: documents that agree on
      which fields are truthy and which lack the keyword get the same
      findings. */
  lemma AnalyzeIgnoresLength(d1: Data, d2: Data, keyword: string)
    requires WellTyped(d1) && WellTyped(d2)
    requires IsSet(d1, SeoTitleKey) == IsSet(d2, SeoTitleKey)
    requires IsSet(d1, SeoDescriptionKey) == IsSet(d2, SeoDescriptionKey)
    requires Lacks(TextField(d1, SeoTitleKey), keyword) == Lacks(TextField(d2, SeoTitleKey), keyword)
    requires Lacks(TextField(d1, SeoDescriptionKey), keyword) == Lacks(TextField(d2, SeoDescriptionKey), keyword)
    ensures Analyze(d1, keyword) == Analyze(d2, keyword)
    ensures AnalyzeCorrected(d1, keyword) == AnalyzeCorrected(d2, keyword)
  {
  }
}

=== FILE: metadata.dfy ===
/** The decoded frontmatter mapping and the field-name configuration. */
module Metadata {
  import opened Wrappers

  /** A decoded frontmatter value: a scalar string or a list of strings. */
  datatype Value = Text(text: string) | Items(items: seq<string>)

  /** The frontmatter mapping, `frontmatter.data` in the source. */
  type Data = map<string, Value>

  /** JavaScript truthiness of a value: the empty string is falsy, every
      list (even an empty one) is truthy. */
  predicate Truthy(v: Value) {
    !(v.Text? && v.text == "")
  }

  /** `!!data[key]`: the key is present and its value truthy. */
  predicate IsSet(data: Data, key: string) {
    key in data && Truthy(data[key])
  }

  /** The key, when present, holds a string, as the analyzers that call
      string methods on it expect. */
  predicate HoldsText(data: Data, key: string) {
    key in data ==> data[key].Text?
  }

  /** Reads a string field the way the rules test it: Some when the value is
      truthy, None when it is absent or the empty string. */
  function TextField(data: Data, key: string): (r: Option<string>)
    requires HoldsText(data, key)
    ensures r.Some? <==> IsSet(data, key)
    ensures r.Some? ==> r.value != "" && data[key] == Text(r.value)
  {
    if IsSet(data, key) then Some(data[key].text) else None
  }

  /** The names of the three configurable frontmatter fields. */
  datatype FrontmatterConfiguration = FrontmatterConfiguration(
    titleField: string,
    seoTitleField: string,
    seoDescriptionField: string)
}

=== FILE: seqs.dfy ===
/** JavaScript's `Array.prototype.filter` and `Array.prototype.find`, the two
    array operations every rule is built from. */
module Seqs {
  import opened Wrappers

  /** `s.filter(p)`: the elements satisfying `p`, in their original order. */
  function Filter<T>(s: seq<T>, p: T -> bool): (r: seq<T>)
    decreases |s|
    ensures |r| <= |s|
    ensures forall x <- r :: p(x) && x in s
    ensures forall x <- s :: p(x) ==> x in r
  {
    if |s| == 0 then [] else (if p(s[0]) then [s[0]] else []) + Filter(s[1..], p)
  }

  /** Filtering distributes over concatenation, so it keeps document order. */
  lemma {:induction false} FilterConcat<T>(a: seq<T>, b: seq<T>, p: T -> bool)
    ensures Filter(a + b, p) == Filter(a, p) + Filter(b, p)
    decreases |a|
  {
    if |a| == 0 {
      assert a + b == b;
    } else {
      assert (a + b)[0] == a[0];
      assert (a + b)[1..] == a[1..] + b;
      FilterConcat(a[1..], b, p);
    }
  }

  /** `if (c) results.push(x)`: a one-element list when `c` holds, the
      empty list otherwise. */
  function When<T>(c: bool, x: T): seq<T> {
    if c then [x] else []
  }

  /** `s.find(p)`: the first element satisfying `p`, or None. */
  function Find<T>(s: seq<T>, p: T -> bool): (r: Option<T>)
    decreases |s|
    ensures r.None? <==> forall x <- s :: !p(x)
    ensures r.Some? ==> p(r.value)
    ensures r.Some? ==> exists i :: 0 <= i < |s| && s[i] == r.value && forall j :: 0 <= j < i ==> !p(s[j])
  {
    if |s| == 0 then None
    else if p(s[0]) then Some(s[0])
    else
      var r := Find(s[1..], p);
      FindShift(s, p, r);
      r
  }

  lemma FindShift<T>(s: seq<T>, p: T -> bool, r: Option<T>)
    requires |s| > 0 && !p(s[0])
    requires r.Some? ==> exists i :: 0 <= i < |s[1..]| && s[1..][i] == r.value && forall j :: 0 <= j < i ==> !p(s[1..][j])
    ensures r.Some? ==> exists i :: 0 <= i < |s| && s[i] == r.value && forall j :: 0 <= j < i ==> !p(s[j])
  {
    if r.Some? {
      var i :| 0 <= i < |s[1..]| && s[1..][i] == r.value && forall j :: 0 <= j < i ==> !p(s[1..][j]);
      assert s[i + 1] == r.value;
      assert forall j :: 0 <= j < i + 1 ==> !p(s[j]) by {
        forall j | 0 < j < i + 1
          ensures !p(s[j])
        {
          assert s[j] == s[1..][j - 1];
        }
      }
    }
  }

  /** `find` returns the first element `filter` keeps. */
  lemma {:induction false} FindIsFirstOfFilter<T>(s: seq<T>, p: T -> bool)
    ensures Find(s, p) == if |Filter(s, p)| == 0 then None else Some(Filter(s, p)[0])
    decreases |s|
  {
    if |s| > 0 && !p(s[0]) {
      FindIsFirstOfFilter(s[1..], p);
    }
  }

  /** `s.filter(p).length === s.length` exactly when every element satisfies `p`. */
  lemma {:induction false} FilterKeepsAll<T>(s: seq<T>, p: T -> bool)
    ensures |Filter(s, p)| == |s| <==> forall x <- s :: p(x)
    decreases |s|
  {
    if |s| > 0 {
      FilterKeepsAll(s[1..], p);
      assert forall x <- s :: x == s[0] || x in s[1..];
    }
  }

  /** Filtering with a predicate every element satisfies keeps the list. */
  lemma {:induction false} FilterKeepsEvery<T>(s: seq<T>, p: T -> bool)
    requires forall x <- s :: p(x)
    ensures Filter(s, p) == s
    decreases |s|
  {
    if |s| > 0 {
      assert forall x <- s[1..] :: x in s;
      FilterKeepsEvery(s[1..], p);
    }
  }

  /** Filtering with a predicate no element satisfies leaves nothing. */
  lemma {:induction false} FilterDropsEvery<T>(s: seq<T>, p: T -> bool)
    requires forall x <- s :: !p(x)
    ensures Filter(s, p) == []
    decreases |s|
  {
    if |s| > 0 {
      assert forall x <- s[1..] :: x in s;
      FilterDropsEvery(s[1..], p);
    }
  }

  /** Two filters in a row are one filter with the conjunction. */
  lemma {:induction false} FilterFilter<T>(s: seq<T>, p: T -> bool, q: T -> bool, pq: T -> bool)
    requires forall x :: pq(x) == (p(x) && q(x))
    ensures Filter(Filter(s, p), q) == Filter(s, pq)
    decreases |s|
  {
    if |s| > 0 {
      FilterFilter(s[1..], p, q, pq);
      var head := if p(s[0]) then [s[0]] else [];
      FilterConcat(head, Filter(s[1..], p), q);
      if p(s[0]) {
        assert head[1..] == [];
      }
    }
  }

  /** `s.map(f)`. */
  function Map<T, U>(s: seq<T>, f: T -> U): (r: seq<U>)
    decreases |s|
    ensures |r| == |s|
    ensures forall i :: 0 <= i < |s| ==> r[i] == f(s[i])
  {
    if |s| == 0 then [] else [f(s[0])] + Map(s[1..], f)
  }

  lemma MapConcat<T, U>(a: seq<T>, b: seq<T>, f: T -> U)
    ensures Map(a + b, f) == Map(a, f) + Map(b, f)
  {
    assert |Map(a + b, f)| == |Map(a, f) + Map(b, f)|;
    forall i | 0 <= i < |a + b|
      ensures Map(a + b, f)[i] == (Map(a, f) + Map(b, f))[i]
    {
      if i < |a| {
        assert (a + b)[i] == a[i];
      } else {
        assert (a + b)[i] == b[i - |a|];
      }
    }
  }

  /** A map that sends nothing else to `f(x)` keeps the count of `x`. */
  lemma {:induction false} MapCount<T, U>(s: seq<T>, f: T -> U, x: T)
    requires forall y :: f(y) == f(x) ==> y == x
    ensures multiset(Map(s, f))[f(x)] == multiset(s)[x]
    decreases |s|
  {
    if |s| > 0 {
      MapCount(s[1..], f, x);
      assert Map(s, f) == [f(s[0])] + Map(s[1..], f);
      assert s == [s[0]] + s[1..];
    }
  }

  /** Counting in a concatenation adds the counts of its parts. */
  lemma CountConcat<T>(a: seq<T>, b: seq<T>, x: T)
    ensures multiset(a + b)[x] == multiset(a)[x] + multiset(b)[x]
  {
    assert multiset(a + b) == multiset(a) + multiset(b);
  }

  /** Counting in a concatenation of three parts. */
  lemma ThreePartCount<T>(a: seq<T>, b: seq<T>, c: seq<T>, x: T)
    ensures multiset(a + b + c)[x] == multiset(a)[x] + multiset(b)[x] + multiset(c)[x]
  {
    CountConcat(a, b, x);
    CountConcat(a + b, c, x);
  }

  /** Filtering after a map that keeps the predicate's answer is mapping
      after filtering. */
  lemma {:induction false} FilterMap<T, U>(s: seq<T>, f: T -> U, q: T -> bool, p: U -> bool)
    requires forall x :: p(f(x)) == q(x)
    ensures Filter(Map(s, f), p) == Map(Filter(s, q), f)
    decreases |s|
  {
    if |s| > 0 {
      var m := Map(s, f);
      assert m[0] == f(s[0]) && m[1..] == Map(s[1..], f);
      FilterMap(s[1..], f, q, p);
      var head := if q(s[0]) then [s[0]] else [];
      MapConcat(head, Filter(s[1..], q), f);
      if q(s[0]) {
        assert Map(head, f) == [f(s[0])] by {
          assert head[1..] == [];
        }
      }
    }
  }

  /** Finding after such a map is mapping what was found. */
  lemma {:induction false} FindMap<T, U>(s: seq<T>, f: T -> U, q: T -> bool, p: U -> bool)
    requires forall x :: p(f(x)) == q(x)
    ensures Find(Map(s, f), p) == if Find(s, q).None? then None else Some(f(Find(s, q).value))
    decreases |s|
  {
    if |s| > 0 {
      var m := Map(s, f);
      assert m[0] == f(s[0]) && m[1..] == Map(s[1..], f);
      FindMap(s[1..], f, q, p);
    }
  }
}

=== FILE: strings.dfy ===
/** The JavaScript string primitives the rule engine relies on, stated over
    `seq<char>`: `toLowerCase` (ASCII letters only), `indexOf`, `split(' ')`,
    `split(/\s+/)` (ASCII whitespace only), `substr(0, n)` and the decimal
    rendering of a number inside a template literal. */
module Strings {
  import opened Wrappers

  // ---------------------------------------------------------------------------
  // Lower-casing
  // ---------------------------------------------------------------------------

  predicate IsUpper(c: char) {
    'A' <= c <= 'Z'
  }

  /** `toLowerCase` on one character, restricted to ASCII letters. */
  function LowerChar(c: char): char {
    if IsUpper(c) then (c as int + 32) as char else c
  }

  /** `toLowerCase` on a string, restricted to ASCII letters: every
      upper-case letter becomes its lower-case letter, every other character
      is kept, and no upper-case letter remains. */
  function Lower(s: string): (r: string)
    ensures |r| == |s|
    ensures forall i :: 0 <= i < |s| && IsUpper(s[i]) ==> r[i] as int == s[i] as int + 32 && 'a' <= r[i] <= 'z'
    ensures forall i :: 0 <= i < |s| && !IsUpper(s[i]) ==> r[i] == s[i]
    ensures forall c <- r :: !IsUpper(c)
  {
    seq(|s|, i requires 0 <= i < |s| => LowerChar(s[i]))
  }

  lemma LowerCharSpace(c: char)
    ensures LowerChar(c) == ' ' <==> c == ' '
  {
  }

  lemma LowerConcat(a: string, b: string)
    ensures Lower(a + b) == Lower(a) + Lower(b)
  {
  }

  lemma LowerSlice(s: string, i: int, j: int)
    requires 0 <= i <= j <= |s|
    ensures Lower(s[i..j]) == Lower(s)[i..j]
  {
  }

  // ---------------------------------------------------------------------------
  // Substring search
  // ---------------------------------------------------------------------------

  /** `needle` occurs in `hay` at index `i`. */
  predicate OccursAt(needle: string, hay: string, i: int) {
    0 <= i && i + |needle| <= |hay| && hay[i..i + |needle|] == needle
  }

  /** `needle` is a (contiguous) substring of `hay`. */
  ghost predicate Occurs(needle: string, hay: string) {
    exists i :: OccursAt(needle, hay, i)
  }

  /** The source's `hay.toLowerCase().indexOf(needle.toLowerCase()) !== -1`. */
  ghost predicate OccursIgnoringCase(needle: string, hay: string) {
    Occurs(Lower(needle), Lower(hay))
  }

  /** The first index at or after `from` where `needle` occurs in `hay`, or -1. */
  function IndexFrom(hay: string, needle: string, from: nat): (r: int)
    decreases |hay| - from
    ensures r == -1 || (from <= r && OccursAt(needle, hay, r))
    ensures r == -1 ==> forall i :: from <= i ==> !OccursAt(needle, hay, i)
    ensures r != -1 ==> forall i :: from <= i < r ==> !OccursAt(needle, hay, i)
  {
    if |hay| < from + |needle| then -1
    else if hay[from..from + |needle|] == needle then from
    else IndexFrom(hay, needle, from + 1)
  }

  /** JavaScript's `hay.indexOf(needle)`: the first index at which `needle`
      occurs in `hay`, or -1 when it does not occur at all. */
  function IndexOf(hay: string, needle: string): (r: int)
    ensures r == -1 <==> !Occurs(needle, hay)
    ensures r != -1 ==> OccursAt(needle, hay, r)
    ensures r != -1 ==> forall i :: 0 <= i < r ==> !OccursAt(needle, hay, i)
  {
    IndexFrom(hay, needle, 0)
  }

  /** The source's `hay.indexOf(needle) !== -1`. */
  function Contains(hay: string, needle: string): (r: bool)
    ensures r <==> Occurs(needle, hay)
  {
    IndexOf(hay, needle) != -1
  }

  lemma EmptyOccurs(s: string)
    ensures Occurs("", s)
  {
    assert OccursAt("", s, 0);
  }

  lemma OccursTransitive(a: string, b: string, c: string)
    requires Occurs(a, b) && Occurs(b, c)
    ensures Occurs(a, c)
  {
    var i :| OccursAt(a, b, i);
    var j :| OccursAt(b, c, j);
    forall k | 0 <= k < |a|
      ensures c[j + i + k] == a[k]
    {
      assert b[i..i + |a|][k] == a[k];
      assert c[j..j + |b|][i + k] == b[i + k];
    }
    assert c[j + i..j + i + |a|] == a;
    assert OccursAt(a, c, j + i);
  }

  lemma OccursLower(a: string, b: string)
    requires Occurs(a, b)
    ensures Occurs(Lower(a), Lower(b))
  {
    var i :| OccursAt(a, b, i);
    LowerSlice(b, i, i + |a|);
    assert OccursAt(Lower(a), Lower(b), i);
  }

  lemma OccursInConcat(a: string, b: string)
    ensures Occurs(a, a + b)
    ensures Occurs(b, a + b)
  {
    assert (a + b)[..|a|] == a;
    assert OccursAt(a, a + b, 0);
    assert (a + b)[|a|..] == b;
    assert OccursAt(b, a + b, |a|);
  }

  // ---------------------------------------------------------------------------
  // split(sep) for a one-character separator
  // ---------------------------------------------------------------------------

  /** The inverse of `Split`: the pieces glued back together with `sep`. */
  function Join(pieces: seq<string>, sep: char): string
    requires |pieces| >= 1
    decreases |pieces|
  {
    if |pieces| == 1 then pieces[0] else pieces[0] + [sep] + Join(pieces[1..], sep)
  }

  /** JavaScript's `s.split(sep)` for a one-character separator: the maximal
      separator-free pieces between separators, in order. Adjacent or
      boundary separators produce empty pieces, and `"".split(sep)` is `[""]`. */
  function Split(s: string, sep: char): (r: seq<string>)
    decreases |s|
    ensures |r| >= 1
    ensures forall p <- r :: sep !in p
    ensures Join(r, sep) == s
  {
    if |s| == 0 then [""]
    else
      var rest := Split(s[1..], sep);
      if s[0] == sep then
        assert [sep] + s[1..] == s;
        [""] + rest
      else
        var r := [[s[0]] + rest[0]] + rest[1..];
        assert r[1..] == rest[1..];
        assert [s[0]] + s[1..] == s;
        r
  }

  lemma {:induction false} SplitSeparatorFree(a: string, sep: char)
    requires sep !in a
    ensures Split(a, sep) == [a]
    decreases |a|
  {
    if |a| > 0 {
      SplitSeparatorFree(a[1..], sep);
      assert [a[0]] + a[1..] == a;
    }
  }

  lemma {:induction false} SplitAfterPiece(a: string, b: string, sep: char)
    requires sep !in a
    ensures Split(a + [sep] + b, sep) == [a] + Split(b, sep)
    decreases |a|
  {
    var s := a + [sep] + b;
    if |a| == 0 {
      assert s[1..] == b;
    } else {
      assert s[1..] == a[1..] + [sep] + b;
      SplitAfterPiece(a[1..], b, sep);
      assert [a[0]] + a[1..] == a;
    }
  }

  /** Splitting what `Join` produced gives back the pieces, provided no piece
      contains the separator. */
  lemma {:induction false} SplitJoin(pieces: seq<string>, sep: char)
    requires |pieces| >= 1
    requires forall p <- pieces :: sep !in p
    ensures Split(Join(pieces, sep), sep) == pieces
    decreases |pieces|
  {
    if |pieces| == 1 {
      SplitSeparatorFree(pieces[0], sep);
    } else {
      SplitJoin(pieces[1..], sep);
      SplitAfterPiece(pieces[0], Join(pieces[1..], sep), sep);
      assert [pieces[0]] + pieces[1..] == pieces;
    }
  }

  /** Every piece of a join occurs in it. */
  lemma {:induction false} PiecesOccurInJoin(pieces: seq<string>, sep: char)
    requires |pieces| >= 1
    ensures forall p <- pieces :: Occurs(p, Join(pieces, sep))
    decreases |pieces|
  {
    if |pieces| == 1 {
      OccursInConcat(pieces[0], "");
      assert pieces[0] + "" == pieces[0];
    } else {
      var j := Join(pieces, sep);
      var tail := Join(pieces[1..], sep);
      PiecesOccurInJoin(pieces[1..], sep);
      OccursInConcat(pieces[0], [sep] + tail);
      assert j == pieces[0] + ([sep] + tail);
      OccursInConcat(pieces[0] + [sep], tail);
      forall p <- pieces
        ensures Occurs(p, j)
      {
        if p != pieces[0] {
          assert p in pieces[1..];
          OccursTransitive(p, tail, j);
        }
      }
    }
  }

  /** Every piece `split` returns occurs in the string it came from. */
  lemma SplitPiecesOccur(s: string, sep: char)
    ensures forall p <- Split(s, sep) :: Occurs(p, s)
  {
    PiecesOccurInJoin(Split(s, sep), sep);
  }

  function LowerAll(pieces: seq<string>): (r: seq<string>)
    ensures |r| == |pieces|
  {
    seq(|pieces|, i requires 0 <= i < |pieces| => Lower(pieces[i]))
  }

  lemma {:induction false} LowerJoin(pieces: seq<string>)
    requires |pieces| >= 1
    ensures Lower(Join(pieces, ' ')) == Join(LowerAll(pieces), ' ')
    decreases |pieces|
  {
    if |pieces| > 1 {
      LowerJoin(pieces[1..]);
      assert LowerAll(pieces)[1..] == LowerAll(pieces[1..]);
      LowerConcat(pieces[0] + [' '], Join(pieces[1..], ' '));
      LowerConcat(pieces[0], [' ']);
    }
  }

  lemma LowerAllSpaceFree(pieces: seq<string>)
    requires forall p <- pieces :: ' ' !in p
    ensures forall p <- LowerAll(pieces) :: ' ' !in p
  {
    forall i | 0 <= i < |pieces|
      ensures ' ' !in LowerAll(pieces)[i]
    {
      var q := pieces[i];
      assert ' ' !in q;
      forall k | 0 <= k < |q|
        ensures Lower(q)[k] != ' '
      {
        LowerCharSpace(q[k]);
      }
    }
  }

  /** Splitting on a space commutes with lower-casing: the pieces of the
      lower-cased string are the lower-cased pieces. */
  lemma SplitLower(s: string)
    ensures Split(Lower(s), ' ') == LowerAll(Split(s, ' '))
  {
    var pieces := Split(s, ' ');
    LowerJoin(pieces);
    LowerAllSpaceFree(pieces);
    SplitJoin(LowerAll(pieces), ' ');
  }

  // ---------------------------------------------------------------------------
  // split(/\s+/)
  // ---------------------------------------------------------------------------

  /** The characters the model lets `\s` match: space and the ASCII control
      characters tab, line feed, vertical tab, form feed and carriage return. */
  predicate IsSpace(c: char) {
    c == ' ' || 9 <= c as int <= 13
  }

  predicate SpaceFree(s: string) {
    forall i :: 0 <= i < |s| ==> !IsSpace(s[i])
  }

  /** The number of maximal whitespace runs in `s`, counted at their last character. */
  function RunEnds(s: string): nat
    decreases |s|
  {
    if |s| == 0 then 0
    else (if IsSpace(s[0]) && (|s| == 1 || !IsSpace(s[1])) then 1 else 0) + RunEnds(s[1..])
  }

  /** `s` with every whitespace character dropped. */
  function RemoveSpaces(s: string): string
    decreases |s|
  {
    if |s| == 0 then "" else (if IsSpace(s[0]) then "" else [s[0]]) + RemoveSpaces(s[1..])
  }

  /** The pieces concatenated with nothing in between. */
  function Concat(pieces: seq<string>): string
    decreases |pieces|
  {
    if |pieces| == 0 then "" else pieces[0] + Concat(pieces[1..])
  }

  lemma PrependToFirstPiece(c: char, rest: seq<string>)
    requires |rest| >= 1 && !IsSpace(c)
    requires forall p <- rest :: SpaceFree(p)
    ensures forall p <- [[c] + rest[0]] + rest[1..] :: SpaceFree(p)
  {
    var r := [[c] + rest[0]] + rest[1..];
    assert rest[0] in rest;
    assert SpaceFree(r[0]);
    forall p <- r
      ensures SpaceFree(p)
    {
      if p != r[0] {
        assert p in r[1..];
        assert r[1..] == rest[1..];
        assert p in rest;
      }
    }
  }

  lemma ConcatPrepend(c: char, rest: seq<string>)
    requires |rest| >= 1
    ensures Concat([[c] + rest[0]] + rest[1..]) == [c] + Concat(rest)
  {
    var r := [[c] + rest[0]] + rest[1..];
    assert r[1..] == rest[1..];
    calc {
      Concat(r);
      r[0] + Concat(rest[1..]);
      [c] + (rest[0] + Concat(rest[1..]));
      [c] + Concat(rest);
    }
  }

  /** JavaScript's `s.split(/\s+/)`: one piece more than there are whitespace
      runs, the pieces free of whitespace and together holding exactly the
      non-whitespace characters of `s`, in order. A leading or trailing run
      yields an empty piece, and `"".split(/\s+/)` is `[""]`. */
  function SplitWhitespace(s: string): (r: seq<string>)
    decreases |s|
    ensures |r| == RunEnds(s) + 1
    ensures forall p <- r :: SpaceFree(p)
    ensures Concat(r) == RemoveSpaces(s)
  {
    if |s| == 0 then [""]
    else
      var rest := SplitWhitespace(s[1..]);
      if !IsSpace(s[0]) then
        PrependToFirstPiece(s[0], rest);
        ConcatPrepend(s[0], rest);
        [[s[0]] + rest[0]] + rest[1..]
      else if |s| > 1 && IsSpace(s[1]) then rest
      else [""] + rest
  }

  /** The source's count of `split(/\s+/)` pieces. */
  function WordCount(s: string): (r: nat)
    ensures r == RunEnds(s) + 1
  {
    |SplitWhitespace(s)|
  }

  // ---------------------------------------------------------------------------
  // substr(0, n) and number rendering
  // ---------------------------------------------------------------------------

  /** JavaScript's `s.substr(0, n)` for n >= 0: the first n characters, or all of `s`. */
  function Prefix(s: string, n: nat): (r: string)
    ensures |r| == if n <= |s| then n else |s|
    ensures r <= s
  {
    if n <= |s| then s[..n] else s
  }

  predicate IsDigit(c: char) {
    '0' <= c <= '9'
  }

  function DigitChar(d: nat): (c: char)
    requires d < 10
    ensures IsDigit(c)
  {
    "0123456789"[d]
  }

  function DigitValue(c: char): nat
    requires IsDigit(c)
  {
    c as int - '0' as int
  }

  /** The decimal rendering of a number inside a template literal, `${n}`. */
  function NatToString(n: nat): (r: string)
    decreases n
    ensures |r| >= 1
    ensures forall c <- r :: IsDigit(c)
    ensures |r| > 1 ==> r[0] != '0'
  {
    if n < 10 then [DigitChar(n)] else NatToString(n / 10) + [DigitChar(n % 10)]
  }

  /** Reads a non-empty run of decimal digits back as a number. */
  function ParseNat(s: string): Option<nat>
    decreases |s|
  {
    if |s| == 0 || !IsDigit(s[|s| - 1]) then None
    else if |s| == 1 then Some(DigitValue(s[0]))
    else
      match ParseNat(s[..|s| - 1])
      case None => None
      case Some(v) => Some(10 * v + DigitValue(s[|s| - 1]))
  }

  /** The rendered number reads back as the same number. */
  lemma {:induction false} ParseNatToString(n: nat)
    ensures ParseNat(NatToString(n)) == Some(n)
    decreases n
  {
    if n >= 10 {
      var s := NatToString(n);
      ParseNatToString(n / 10);
      assert s[..|s| - 1] == NatToString(n / 10);
    }
  }
}

=== FILE: title.dfy ===
/** The header-structure and article-title rules of the body analysis. */
module Title {
  import opened Wrappers
  import opened Strings
  import opened Seqs
  import opened Ast
  import opened Errors
  import opened Metadata
  import opened Utils

  const HeaderStructureMessage := "Inconsistent Header Structure. Only one first level Header allowed."

  const TitleNotFound := AnalyzerError("Article Title", "Not found", Body)

  const DuplicateTitle := AnalyzerError("Article Title", "Found title in First-Level Headline and Frontmatter", Body)

  const TitleOnlyTopKeyword := AnalyzerError("Article Title", "Article Title should only include the top keyword", Body)

  function TitleKeywordMissing(keyword: string): AnalyzerResult {
    AnalyzerError("Article Title", "Keyword " + keyword + " not found", Body)
  }

  /** The first-level headers among the top-level nodes, in document order. */
  function TopHeaders(children: seq<AstChild>): seq<AstChild> {
    Filter(children, IsTopHeader)
  }

  /** `validateHeaderStructure`: with more than one first-level header, one
      `HeaderError` per such header, in document order, each carrying that
      header's location; otherwise nothing. */
  function ValidateHeaderStructure(children: seq<AstChild>): (r: seq<AnalyzerResult>)
    ensures |TopHeaders(children)| <= 1 ==> r == []
    ensures |TopHeaders(children)| > 1 ==> |r| == |TopHeaders(children)|
    ensures forall i :: 0 <= i < |r| ==>
      r[i] == HeaderError("Header", TopHeaders(children)[i].loc, HeaderStructureMessage, Body)
  {
    var headers := TopHeaders(children);
    if |headers| > 1 then HeaderErrors(headers) else []
  }

  function HeaderErrors(headers: seq<AstChild>): (r: seq<AnalyzerResult>)
    ensures |r| == |headers|
  {
    seq(|headers|, i requires 0 <= i < |headers| =>
      HeaderError("Header", headers[i].loc, HeaderStructureMessage, Body))
  }

  /** Nodes other than first-level headers never contribute: inserting one
      anywhere leaves the header-structure findings unchanged. */
  lemma HeaderStructureIgnoresOtherNodes(before: seq<AstChild>, n: AstChild, after: seq<AstChild>)
    requires !IsTopHeader(n)
    ensures ValidateHeaderStructure(before + [n] + after) == ValidateHeaderStructure(before + after)
  {
    assert Filter([n], IsTopHeader) == [] by {
      assert [n][1..] == [];
    }
    assert TopHeaders(before + [n] + after) == TopHeaders(before + after) by {
      FilterConcat(before + [n], after, IsTopHeader);
      FilterConcat(before, [n], IsTopHeader);
      FilterConcat(before, after, IsTopHeader);
    }
  }

  /** `children.find(...)` for the first first-level header. */
  function FirstTopHeader(children: seq<AstChild>): (r: Option<AstChild>)
    ensures r.None? <==> |TopHeaders(children)| == 0
    ensures r.Some? ==> r.value == TopHeaders(children)[0]
  {
    FindIsFirstOfFilter(children, IsTopHeader);
    Find(children, IsTopHeader)
  }

  /** `isTitlePresent`: a first-level header exists, or else the configured
      title field is truthy. */
  function IsTitlePresent(data: Data, children: seq<AstChild>, configuration: FrontmatterConfiguration): (r: bool)
    ensures r <==> |TopHeaders(children)| > 0 || IsSet(data, configuration.titleField)
  {
    if FirstTopHeader(children).None? then IsSet(data, configuration.titleField) else true
  }

  /** `hasDuplicateTitle`: both a first-level header and a truthy title field. */
  function HasDuplicateTitle(data: Data, children: seq<AstChild>, configuration: FrontmatterConfiguration): (r: bool)
    ensures r <==> |TopHeaders(children)| > 0 && IsSet(data, configuration.titleField)
  {
    FirstTopHeader(children).Some? && IsSet(data, configuration.titleField)
  }

  /** `getHeader`: the article's title, preferring the frontmatter title field
      when truthy and falling back to the raw text of the first first-level
      header; None when neither exists. */
  function GetHeader(data: Data, children: seq<AstChild>, configuration: FrontmatterConfiguration): (r: Option<string>)
    requires HoldsText(data, configuration.titleField)
    ensures IsSet(data, configuration.titleField) ==> r == Some(data[configuration.titleField].text)
    ensures !IsSet(data, configuration.titleField) ==> (r.Some? <==> |TopHeaders(children)| > 0)
    ensures !IsSet(data, configuration.titleField) && |TopHeaders(children)| > 0 ==>
      r == Some(TopHeaders(children)[0].raw)
  {
    match TextField(data, configuration.titleField)
    case Some(title) => Some(title)
    case None =>
      match FirstTopHeader(children)
      case Some(header) => Some(header.raw)
      case None => None
  }

  /** The keywords after the primary one, `keywords.slice(1)`. */
  function Secondary(keywords: seq<string>): (r: seq<string>)
    ensures |r| == if |keywords| == 0 then 0 else |keywords| - 1
    ensures forall i :: 0 <= i < |r| ==> r[i] == keywords[i + 1]
  {
    if |keywords| == 0 then [] else keywords[1..]
  }

  /** `analyzeTitleForRemainingKeywords`: one finding when some keyword after
      the primary one occurs in the title, compared case-sensitively. */
  function AnalyzeTitleForRemainingKeywords(keywords: seq<string>, header: string): (r: Option<AnalyzerResult>)
    ensures r.Some? <==> exists i :: 1 <= i < |keywords| && Occurs(keywords[i], header)
    ensures r.Some? ==> r.value == TitleOnlyTopKeyword
  {
    var rest := Secondary(keywords);
    var found := Filter(rest, (k: string) => Contains(header, k));
    if |found| > 0 then
      assert found[0] in rest;
      Some(TitleOnlyTopKeyword)
    else
      assert forall i :: 1 <= i < |keywords| ==> keywords[i] == rest[i - 1] && rest[i - 1] in rest;
      None
  }

  /** The four title findings are pairwise different. */
  lemma TitleFindingsDiffer(keyword: string)
    ensures TitleKeywordMissing(keyword) != TitleNotFound
    ensures TitleKeywordMissing(keyword) != DuplicateTitle
    ensures TitleKeywordMissing(keyword) != TitleOnlyTopKeyword
  {
    // The messages differ in their last two characters.
    var m := TitleKeywordMissing(keyword).message;
    assert |m| == 18 + |keyword| && m[|m| - 2] == 'n' && m[|m| - 1] == 'd';
    var dup := DuplicateTitle.message;
    assert |dup| == 51 && dup[50] == 'r';
    var top := TitleOnlyTopKeyword.message;
    assert |top| == 49 && top[47] == 'r';
  }

  lemma FourWhens(c1: bool, a: AnalyzerResult, c2: bool, b: AnalyzerResult,
                  c3: bool, c: AnalyzerResult, c4: bool, d: AnalyzerResult)
    requires a != b && a != c && a != d && b != c && b != d && c != d
    ensures var r := When(c1, a) + (When(c2, b) + (When(c3, c) + When(c4, d)));
      && (forall x :: x in r <==> (c1 && x == a) || (c2 && x == b) || (c3 && x == c) || (c4 && x == d))
      && Distinct(r)
  {
    WhenPrepend(c4, d, []);
    assert When(c4, d) + [] == When(c4, d);
    WhenPrepend(c3, c, When(c4, d));
    WhenPrepend(c2, b, When(c3, c) + When(c4, d));
    WhenPrepend(c1, a, When(c2, b) + (When(c3, c) + When(c4, d)));
  }

  /** The condition of the keyword-missing title rule: a truthy title, a
      truthy primary keyword, and neither a literal nor a partial match. */
  predicate PrimaryKeywordMissing(header: Option<string>, keywords: seq<string>) {
    && header.Some? && header.value != ""
    && |keywords| > 0 && keywords[0] != ""
    && !Contains(header.value, keywords[0]) && !PartialMatch(keywords[0], header.value)
  }

  /** `validateTitle`, given its configuration. The analyzer entry point
      calls it without one; `ValidateTitleAsCalled` below models that call. */
  function ValidateTitle(data: Data, children: seq<AstChild>, keywords: seq<string>, configuration: FrontmatterConfiguration): (r: seq<AnalyzerResult>)
    requires HoldsText(data, configuration.titleField)
    ensures forall f <- r :: f.AnalyzerError? && f.title == "Article Title" && f.resultType == Body
    ensures forall f <- r ::
      (f == TitleNotFound || f == DuplicateTitle || f == TitleOnlyTopKeyword
       || (|keywords| > 0 && f == TitleKeywordMissing(keywords[0])))
    ensures Distinct(r)
    ensures TitleNotFound in r <==> |TopHeaders(children)| == 0 && !IsSet(data, configuration.titleField)
    ensures DuplicateTitle in r <==> |TopHeaders(children)| > 0 && IsSet(data, configuration.titleField)
    ensures |keywords| > 0 ==> (TitleKeywordMissing(keywords[0]) in r <==>
      var h := GetHeader(data, children, configuration);
      h.Some? && h.value != "" && keywords[0] != ""
      && !Occurs(keywords[0], h.value) && !PartialMatch(keywords[0], h.value))
    ensures TitleOnlyTopKeyword in r <==>
      var h := GetHeader(data, children, configuration);
      h.Some? && h.value != "" && exists i :: 1 <= i < |keywords| && Occurs(keywords[i], h.value)
  {
    var header := GetHeader(data, children, configuration);
    var primary := if |keywords| > 0 then keywords[0] else "";
    var remaining := header.Some? && header.value != ""
      && AnalyzeTitleForRemainingKeywords(keywords, header.value).Some?;
    TitleFindingsDiffer(primary);
    FourWhens(!IsTitlePresent(data, children, configuration), TitleNotFound,
              HasDuplicateTitle(data, children, configuration), DuplicateTitle,
              PrimaryKeywordMissing(header, keywords), TitleKeywordMissing(primary),
              remaining, TitleOnlyTopKeyword);
    When(!IsTitlePresent(data, children, configuration), TitleNotFound)
    + (When(HasDuplicateTitle(data, children, configuration), DuplicateTitle)
    + (When(PrimaryKeywordMissing(header, keywords), TitleKeywordMissing(primary))
    + When(remaining, TitleOnlyTopKeyword)))
  }

  /** The keyword-missing title finding never fires when the primary keyword
      occurs in the title ignoring case. */
  lemma TitleKeywordFoundIgnoringCase(data: Data, children: seq<AstChild>, keywords: seq<string>, configuration: FrontmatterConfiguration)
    requires HoldsText(data, configuration.titleField)
    requires |keywords| > 0
    requires GetHeader(data, children, configuration).Some?
    requires Occurs(Lower(keywords[0]), Lower(GetHeader(data, children, configuration).value))
    ensures TitleKeywordMissing(keywords[0]) !in ValidateTitle(data, children, keywords, configuration)
  {
    if keywords[0] != "" {
      WholeKeywordMatches(keywords[0], GetHeader(data, children, configuration).value);
    }
  }

  /** 'Not found' and the duplicate-title finding exclude each other. */
  lemma TitleNotFoundExcludesDuplicate(data: Data, children: seq<AstChild>, keywords: seq<string>, configuration: FrontmatterConfiguration)
    requires HoldsText(data, configuration.titleField)
    ensures !(TitleNotFound in ValidateTitle(data, children, keywords, configuration)
              && DuplicateTitle in ValidateTitle(data, children, keywords, configuration))
  {
  }

  // ---------------------------------------------------------------------------
  // The title rule as the analyzer entry point calls it
  // ---------------------------------------------------------------------------

  /** The message of the `TypeError` thrown when `titleField` is read on an
      `undefined` configuration. */
  const UndefinedTitleField := "Cannot read properties of undefined (reading 'titleField')"

  /** `configuration.titleField`, where None stands for a configuration
      argument that was not passed. */
  function TitleFieldOf(configuration: Option<FrontmatterConfiguration>): (r: Result<string>)
    ensures r.Failure? <==> configuration.None?
    ensures r.Failure? ==> r.error == UndefinedTitleField
    ensures r.Success? ==> r.value == configuration.value.titleField
  {
    match configuration
    case None => Failure(UndefinedTitleField)
    case Some(c) => Success(c.titleField)
  }

  /** `isTitlePresent` with a possibly missing configuration: the title field
      is only read when there is no first-level header, so only then does a
      missing configuration throw. */
  function IsTitlePresentAsCalled(data: Data, children: seq<AstChild>, configuration: Option<FrontmatterConfiguration>): (r: Result<bool>)
    ensures r.Failure? <==> configuration.None? && |TopHeaders(children)| == 0
    ensures configuration.Some? ==> r == Success(IsTitlePresent(data, children, configuration.value))
  {
    if FirstTopHeader(children).Some? then Success(true)
    else
      match TitleFieldOf(configuration)
      case Failure(e) => Failure(e)
      case Success(field) => Success(IsSet(data, field))
  }

  /** `hasDuplicateTitle` with a possibly missing configuration: the title
      field is read unconditionally, so a missing configuration always
      throws. */
  function HasDuplicateTitleAsCalled(data: Data, children: seq<AstChild>, configuration: Option<FrontmatterConfiguration>): (r: Result<bool>)
    ensures r.Failure? <==> configuration.None?
    ensures configuration.Some? ==> r == Success(HasDuplicateTitle(data, children, configuration.value))
  {
    match TitleFieldOf(configuration)
    case Failure(e) => Failure(e)
    case Success(field) => Success(FirstTopHeader(children).Some? && IsSet(data, field))
  }

  /** `validateTitle` with a possibly missing configuration, its two
      lookups run in the source's order: it throws exactly when the
      configuration is missing, and otherwise returns the findings of
      `ValidateTitle`. */
  function ValidateTitleAsCalled(data: Data, children: seq<AstChild>, keywords: seq<string>,
                                 configuration: Option<FrontmatterConfiguration>): (r: Result<seq<AnalyzerResult>>)
    requires configuration.Some? ==> HoldsText(data, configuration.value.titleField)
    ensures r.Failure? <==> configuration.None?
    ensures r.Failure? ==> r.error == UndefinedTitleField
    ensures configuration.Some? ==> r == Success(ValidateTitle(data, children, keywords, configuration.value))
  {
    match IsTitlePresentAsCalled(data, children, configuration)
    case Failure(e) => Failure(e)
    case Success(_) =>
      match HasDuplicateTitleAsCalled(data, children, configuration)
      case Failure(e) => Failure(e)
      case Success(_) => Success(ValidateTitle(data, children, keywords, configuration.value))
  }
}

=== FILE: utils.dfy ===
/** The partial keyword match: a keyword phrase matches a field when every
    word of the phrase occurs somewhere in the field, ignoring case, without
    the phrase having to occur as a whole. */
module Utils {
  import opened Strings

  /** Every piece, lower-cased, occurs in `loweredField`. */
  function AllPiecesFound(pieces: seq<string>, loweredField: string): (r: bool)
    decreases |pieces|
    ensures r <==> forall p <- pieces :: Occurs(Lower(p), loweredField)
  {
    if |pieces| == 0 then true
    else
      assert forall p <- pieces :: p == pieces[0] || p in pieces[1..];
      Contains(loweredField, Lower(pieces[0])) && AllPiecesFound(pieces[1..], loweredField)
  }

  /** `doesKeywordPartialMatch(keyword, fieldValue)`: false for the empty
      keyword; otherwise true exactly when every piece of the keyword split on
      a single space, lower-cased, is a substring of the lower-cased field. */
  function PartialMatch(keyword: string, fieldValue: string): (r: bool)
    ensures keyword == "" ==> !r
    ensures r <==> keyword != "" && forall p <- Split(keyword, ' ') :: Occurs(Lower(p), Lower(fieldValue))
  {
    keyword != "" && AllPiecesFound(Split(keyword, ' '), Lower(fieldValue))
  }

  /** The match stated on the lower-cased keyword: its pieces occur, as they
      are, in the lower-cased field. */
  lemma PartialMatchOnLowered(keyword: string, fieldValue: string)
    ensures PartialMatch(keyword, fieldValue) <==>
      Lower(keyword) != "" && forall p <- Split(Lower(keyword), ' ') :: Occurs(p, Lower(fieldValue))
  {
    var pieces := Split(keyword, ' ');
    var lf := Lower(fieldValue);
    SplitLower(keyword);
    assert Split(Lower(keyword), ' ') == LowerAll(pieces);
    if forall p <- pieces :: Occurs(Lower(p), lf) {
      forall p <- LowerAll(pieces)
        ensures Occurs(p, lf)
      {
        var i :| 0 <= i < |pieces| && LowerAll(pieces)[i] == p;
        assert pieces[i] in pieces;
      }
    }
    if forall p <- LowerAll(pieces) :: Occurs(p, lf) {
      forall p <- pieces
        ensures Occurs(Lower(p), lf)
      {
        var i :| 0 <= i < |pieces| && pieces[i] == p;
        assert LowerAll(pieces)[i] in LowerAll(pieces);
      }
    }
  }

  /** The result depends only on the lower-cased keyword and field: changing
      the case of either changes nothing. */
  lemma PartialMatchIgnoresCase(k1: string, f1: string, k2: string, f2: string)
    requires Lower(k1) == Lower(k2) && Lower(f1) == Lower(f2)
    ensures PartialMatch(k1, f1) == PartialMatch(k2, f2)
  {
    PartialMatchOnLowered(k1, f1);
    PartialMatchOnLowered(k2, f2);
  }

  /** A non-empty keyword that occurs as a whole in the field, ignoring case,
      also matches partially. */
  lemma WholeKeywordMatches(keyword: string, fieldValue: string)
    requires keyword != ""
    requires Occurs(Lower(keyword), Lower(fieldValue))
    ensures PartialMatch(keyword, fieldValue)
  {
    var lk := Lower(keyword);
    SplitPiecesOccur(lk, ' ');
    forall p <- Split(lk, ' ')
      ensures Occurs(p, Lower(fieldValue))
    {
      OccursTransitive(p, lk, Lower(fieldValue));
    }
    PartialMatchOnLowered(keyword, fieldValue);
  }

  /** Reordering the space-separated words of the keyword (any permutation of
      its pieces) does not change the result. */
  lemma PartialMatchIgnoresWordOrder(k1: string, k2: string, fieldValue: string)
    requires multiset(Split(k1, ' ')) == multiset(Split(k2, ' '))
    ensures PartialMatch(k1, fieldValue) == PartialMatch(k2, fieldValue)
  {
    EmptyIffSingleEmptyPiece(k1, k2);
    EmptyIffSingleEmptyPiece(k2, k1);
    var p1 := Split(k1, ' ');
    var p2 := Split(k2, ' ');
    assert forall p :: p in p1 <==> p in multiset(p1);
    assert forall p :: p in p2 <==> p in multiset(p2);
  }

  lemma EmptyIffSingleEmptyPiece(k1: string, k2: string)
    requires multiset(Split(k1, ' ')) == multiset(Split(k2, ' '))
    ensures k1 == "" ==> k2 == ""
  {
    if k1 == "" {
      var p2 := Split(k2, ' ');
      assert multiset(p2) == multiset{""};
      assert |p2| == 1;
      assert p2[0] in multiset(p2);
      assert p2 == [""];
    }
  }

  /** Monotone in the field: a field that contains a matching field as a
      substring matches too. */
  lemma PartialMatchMonotone(keyword: string, f: string, g: string)
    requires PartialMatch(keyword, f)
    requires Occurs(f, g)
    ensures PartialMatch(keyword, g)
  {
    OccursLower(f, g);
    forall p <- Split(keyword, ' ')
      ensures Occurs(Lower(p), Lower(g))
    {
      OccursTransitive(Lower(p), Lower(f), Lower(g));
    }
  }

  lemma {:induction false} SplitOfSpaces(s: string)
    requires forall i :: 0 <= i < |s| ==> s[i] == ' '
    ensures forall p <- Split(s, ' ') :: p == ""
    decreases |s|
  {
    if |s| > 0 {
      SplitOfSpaces(s[1..]);
    }
  }

  /** A non-empty keyword made of spaces only splits into empty pieces, which
      occur everywhere, so it matches every field. */
  lemma AllSpaceKeywordMatches(keyword: string, fieldValue: string)
    requires keyword != ""
    requires forall i :: 0 <= i < |keyword| ==> keyword[i] == ' '
    ensures PartialMatch(keyword, fieldValue)
  {
    SplitOfSpaces(keyword);
    EmptyOccurs(Lower(fieldValue));
    assert Lower("") == "";
  }

  lemma {:induction false} JoinConcat(a: seq<string>, b: seq<string>, sep: char)
    requires |a| >= 1 && |b| >= 1
    ensures Join(a + b, sep) == Join(a, sep) + [sep] + Join(b, sep)
    decreases |a|
  {
    if |a| > 1 {
      assert (a + b)[1..] == a[1..] + b;
      JoinConcat(a[1..], b, sep);
    }
  }

  /** Splitting around one separator splits both sides independently. */
  lemma SplitAround(x: string, y: string, sep: char)
    ensures Split(x + [sep] + y, sep) == Split(x, sep) + Split(y, sep)
  {
    var ps := Split(x, sep) + Split(y, sep);
    JoinConcat(Split(x, sep), Split(y, sep), sep);
    SplitJoin(ps, sep);
  }

  /** Doubling a space inside the keyword only adds an empty piece, which
      always matches: the result is unchanged. */
  lemma DoubledSpaceIsHarmless(a: string, b: string, fieldValue: string)
    ensures PartialMatch(a + " " + b, fieldValue) == PartialMatch(a + "  " + b, fieldValue)
  {
    SplitAround(a, b, ' ');
    SplitAround(a, " " + b, ' ');
    assert a + " " + b == a + [' '] + b;
    assert a + "  " + b == a + [' '] + (" " + b);
    assert " " + b == "" + [' '] + b;
    SplitAround("", b, ' ');
    var s1 := Split(a, ' ') + Split(b, ' ');
    var s2 := Split(a, ' ') + ([""] + Split(b, ' '));
    assert forall p <- s2 :: p == "" || p in s1;
    assert forall p <- s1 :: p in s2;
    EmptyOccurs(Lower(fieldValue));
    assert Lower("") == "";
  }
}

=== FILE: wrappers.dfy ===
/** The optional value used wherever the source works with `undefined`
    (a missing frontmatter key, a `find` that matched nothing), and the
    outcome of a call that may throw. */
module Wrappers {

  datatype Option<+T> = None | Some(value: T)

  /** A value, or the message of the exception thrown instead. */
  datatype Result<+T> = Success(value: T) | Failure(error: string)
}
